=== FILE: README.md ===
# Biometric authentication demo — a Dafny model

This project models the core of a small biometric login system in Dafny 4. Users register with an
email, a password and a face photo, and log in with either the password or a new photo of their face.

The backend exists in two revisions:

- **The current revision** (`backend/api`) issues JWT access and refresh tokens. Every
  operation wraps its body in the same `except` chain: the three application error classes are
  re-raised, a `ValueError` becomes a 400, and anything else becomes a 500.
- **The older revision** (`backend/services`) returns the user's public view. All of its own
  errors are bare `HTTPException(400)`s. Apart from the face extractor's own error, exceptions
  from collaborators escape unchanged.

The browser side contributes the form schemas, the API client, the webcam capture helper and
the user store.

Some code is foreign: argon2 hashing and verification, face extraction and comparison, JWT
encoding and verification, e-mail syntax checking, the database session's flush and commit, and
`atob`. Each of these is a parameter of the operation that uses it (`Collaborators.Deps`,
`Dtos.EmailCheck`, `FrontendSchemas.EmailSyntax`, `WebcamCapture.Decoder`). Every property
below therefore holds whatever those collaborators answer.

The store (`Directory.Store`) holds the user and profile rows in insertion order, so that
`select(...).first()` is "the first matching row". It also holds the next id the database will
assign. `Directory.Valid` is its invariant:

- emails are unique;
- ids increase and stay below the next id;
- every profile belongs to a user;
- a user has at most one profile.

A service call returns a `Collaborators.Run`, which holds three things:

- the result or the escaping exception;
- the store afterwards (the session is rolled back unless its commit succeeds);
- the trace of collaborator calls made, over which the ordering properties are stated.

Modules, one per file: `Wrappers`, `Text`, `HttpExceptions`, `ExceptionHandlers`, `Config`,
`PasswordRules`, `ImageValidation`, `Dtos`, `Directory`, `Collaborators`, `AuthServiceApi`,
`AuthServiceLegacy`, `FrontendSchemas`, `ApiClient`, `WebcamCapture`, `ClientUserStore`.

## Model

| member | source | states |
|---|---|---|
| HttpExceptions.StatusCode | backend/api/errors/http_exceptions.py:4-31 | each application error class carries a status in 400-599; only `InternalServerError` is 500 |
| HttpExceptions.StatusCodeInjective | backend/api/errors/http_exceptions.py:4-31 | no two error classes share a status code |
| HttpExceptions.NewError | backend/api/errors/http_exceptions.py:4-31 | a constructed error carries its class's status and the given detail, or the class default when none is given |
| ExceptionHandlers.ServerErrorHandler | backend/api/errors/exception_handlers.py:8-15 | any unhandled exception becomes a 500 with the fixed apology and only the exception's class name |
| ExceptionHandlers.ValidationExceptionHandler | backend/api/errors/exception_handlers.py:19-26 | a request-validation failure becomes a 422 with the fixed message and the validation errors passed through |
| ExceptionHandlers.HttpExceptionHandler | backend/api/errors/exception_handlers.py:30-36 | an HTTP exception is answered with its own status and its detail, rendered as text, as the message |
| ExceptionHandlers.Respond | backend/api/main.py:35-37 | an exception escaping a service is answered by the HTTP handler when it is an HTTP exception (the `except` chains turn everything into one) and by the server-error handler otherwise |
| ExceptionHandlers.RespondPreservesAppErrors | backend/api/errors/exception_handlers.py:30-36 | an application error reaches the client with its class's status and exactly its detail |
| ExceptionHandlers.RespondHidesNonHttpMessages | backend/api/errors/exception_handlers.py:8-15 | a non-HTTP exception reaches the client as a 500 that never contains its message |
| Config.LoadSettings | backend/api/config.py:7-34 | each lifetime and the cookie max age take their override or the defaults of 15 min, 30 min and 1800 s; the cookie attributes are fixed |
| Config.DefaultLifetimes | backend/api/config.py:13-25 | by default the access token lives shorter than the refresh token, and the cookie lives exactly as long as the refresh token |
| Config.CookieMaxAgeIgnoresRefreshOverride | backend/api/config.py:25 | overriding only the refresh lifetime leaves the cookie at 1800 s; the two agree only at 30 minutes |
| Config.ApiImageBounds | backend/api/constants.py:4-13 | formats png/jpeg/webp, 5 MB, and 100x100 to 4096x4096, the minimum no larger than the maximum |
| Config.LegacyImageBounds | backend/constants.py:4-7 | formats png/jpeg only and 5 MB; the resolution bounds are the caller's |
| Config.MaxImageBytes | backend/api/validators/field_validators.py:120 | a 5 MB limit is 5242880 bytes |
| PasswordRules.AnyDigit | backend/api/validators/field_validators.py:43 | the scan finds a digit exactly when the password contains one |
| PasswordRules.AnyLower | backend/api/validators/field_validators.py:45 | the scan finds a lowercase letter exactly when the password contains one |
| PasswordRules.AnyUpper | backend/api/validators/field_validators.py:47 | the scan finds an uppercase letter exactly when the password contains one |
| PasswordRules.AllAlnum | backend/api/validators/field_validators.py:49 | the scan succeeds exactly when every character is alphanumeric, and so succeeds on the empty string |
| PasswordRules.Check | backend/api/validators/field_validators.py:37-50 | each scanned check fails exactly when the quantified requirement is unmet |
| PasswordRules.Unmet | backend/api/validators/field_validators.py:34-50 | keeps exactly the failing requirements of an ordered list, still in order |
| PasswordRules.Failures | backend/api/validators/field_validators.py:34-50 | the error list holds every unmet requirement and nothing else, each once, in check order |
| PasswordRules.Phrases | backend/api/validators/field_validators.py:38-50 | one phrase per unmet requirement, position by position |
| PasswordRules.ValidatePassword | backend/api/validators/field_validators.py:7-56 | returns the password exactly when no requirement fails; otherwise a `ValueError` listing the unmet requirements, joined by ", ", in check order |
| PasswordRules.DefaultsAccept | backend/api/validators/field_validators.py:7-15 | with the defaults, a password passes iff it has 8-32 characters and a digit, a lowercase letter, an uppercase letter and a non-alphanumeric character |
| PasswordRules.RelaxingNeverAddsFailures | backend/api/validators/field_validators.py:43-50 | turning a requirement flag off never adds a failure or rejects an accepted password |
| PasswordRules.LengthOutOfRangeFails | backend/api/validators/field_validators.py:37-40 | a length outside the bounds is always reported, whatever the flags |
| PasswordRules.NonAlphanumericRule | backend/api/validators/field_validators.py:49-50 | the special-character rule fails iff every character is alphanumeric, so the empty password fails it |
| ImageValidation.Validate | backend/api/validators/field_validators.py:87-126 | no image passes through; undecodable bytes are a `ValueError`; a decoded image is returned unchanged iff no check fails, else the first failing check in order is reported |
| ImageValidation.ValidateImageData | backend/api/validators/field_validators.py:58-126 | with the current bounds, an image is accepted unchanged exactly when it violates no check |
| ImageValidation.ValidateLegacyImageData | backend/validators/image_validators.py:7-47 | with the older bounds, no image passes, an accepted image is unchanged, and undecodable bytes are rejected |
| ImageValidation.SizeLimitInclusive | backend/api/validators/field_validators.py:120-121 | in both revisions exactly 5 MiB passes and one byte more fails with the size message |
| ImageValidation.WebpAcceptedOnlyByCurrentRevision | backend/validators/image_validators.py:37-38 | a WebP image passes the current validator and fails the older one with its JPEG-or-PNG message |
| ImageValidation.LegacyAcceptsCurrentImage | backend/validators/image_validators.py:7-47 | every PNG or JPEG image the current validator accepts passes the older one unchanged, under resolution bounds no stricter than the current ones |
| ImageValidation.EmptyReportedBeforeResolution | backend/api/validators/field_validators.py:101-110 | a 0x0 image is reported as empty, not as too small |
| ImageValidation.ZeroWidthIsTooSmall | backend/api/validators/field_validators.py:101-110 | an image 0 pixels wide but with some height is too small, not empty |
| Dtos.ValidateAuthMethod | backend/api/schemas/LoginDto.py:21-30 | a login DTO passes iff exactly one credential is present, with distinct errors for neither and for both |
| Dtos.EmptyPasswordCountsAsProvided | backend/api/schemas/LoginDto.py:24-28 | an empty password with no image satisfies the one-credential rule |
| Dtos.ParseLogin | backend/api/schemas/LoginDto.py:7-33 | a login form validates iff the email is an address, any image passes the image validator, and exactly one credential is present; a missing email and a missing credential are each reported |
| Dtos.ParseRegister | backend/api/schemas/RegisterDto.py:7-22 | a registration form validates iff the email is an address, the password is 8-32 characters and strong, and an image is present and valid; a missing image is reported |
| Dtos.StrengthMessageNeverAboutLength | backend/api/schemas/RegisterDto.py:9-19 | the field's own length bounds run first, so a strength error never lists a length requirement |
| Dtos.ParseLegacyRegister | backend/schemas/RegisterDto.py:7-19 | the older form validates iff the email is an address, the password is 8-128 characters with no class rule, and the image passes the older validator |
| Dtos.CurrentFormsPassLegacy | backend/schemas/RegisterDto.py:7-19 | a form the current DTO accepts with a PNG or JPEG image is accepted by the older DTO, as the same DTO, under resolution bounds no stricter than the current ones |
| Dtos.LegacyAcceptsWeakPassword | backend/schemas/RegisterDto.py:9-12 | a 40-letter lowercase password is accepted by the older DTO and rejected by the current one |
| Directory.FindByEmail | backend/api/services/AuthService.py:25-27 | finds a row with that email, or nothing exactly when no row has it |
| Directory.FindById | backend/api/services/AuthService.py:194 | finds the row with that id, or nothing exactly when no row has it |
| Directory.ProfileOf | backend/api/services/AuthService.py:99 | finds the user's profile row, or nothing exactly when the user has none |
| Directory.InsertPreservesValid | backend/api/services/AuthService.py:39-58 | committing a user and profile for a new email keeps the store's invariant |
| Directory.InsertLookups | backend/api/services/AuthService.py:39-58 | after the commit the email finds exactly the new row, the new id finds it, its profile holds the embedding, and every other email finds what it found before |
| Collaborators.VerifyRaises | backend/api/services/AuthService.py:96 | argon2 verification raises nothing iff the password matches; a mismatch is not a `ValueError`, an unreadable hash is |
| Collaborators.GenerateFacialEmbedding | backend/utils/deepface_utils.py:9-73 | succeeds iff DeepFace returns exactly one result, with its embedding; an empty result list or several results give the generic `FacialEmbeddingError`; DeepFace's own exceptions, including its "no face detected" `ValueError`, pass unchanged |
| AuthServiceApi.CredentialHandler | backend/api/services/AuthService.py:77-84 | what escapes register and login is a 400, 401, 404 or 500; the three classes are re-raised unchanged; anything else becomes a 400 iff it is a `ValueError`, carrying `str(e)` |
| AuthServiceApi.TokenHandler | backend/api/services/AuthService.py:175-179 | what escapes refresh and me is re-raised or becomes a 500 carrying `str(e)` |
| AuthServiceApi.HandlersDifferOnlyOnValueErrors | backend/api/services/AuthService.py:175-179 | the two chains disagree exactly on non-re-raised `ValueError`s |
| AuthServiceApi.ForbiddenIsNotReraised | backend/api/services/AuthService.py:77-84 | a `ForbiddenError` raised inside the `try` escapes as a 500 under both chains |
| AuthServiceApi.Register | backend/api/services/AuthService.py:29-84 | a taken email is a 400 and changes nothing; the user and profile are committed together iff the email is new, extraction yields one embedding and flush and commit succeed, and otherwise nothing changes; success iff that commit happens and token issuance does not raise, with tokens naming the new id; a raising issuance after the commit fails the request through the chain with the user still stored; extraction precedes any write, there is at most one commit, tokens come last; the invariant is kept |
| AuthServiceApi.EmptyExtractionAtRegistrationIsServerError | backend/api/services/AuthService.py:35-36 | an extraction returning no embedding (or several) fails registration with a 500 and changes nothing |
| AuthServiceApi.UndetectedFaceAtRegistrationIsBadRequest | backend/api/services/AuthService.py:35-36 | an image in which DeepFace detects no face (its own `ValueError`) fails registration with a 400 carrying DeepFace's message and changes nothing |
| AuthServiceApi.IssuanceFailureKeepsTheUser | backend/api/services/AuthService.py:57-69 | when token issuance raises after the commit, the request fails through the chain, the user stays stored, and registering the same email again is a 400 "User already exists" |
| AuthServiceApi.FaceStep | backend/api/services/AuthService.py:99-119 | tokens iff there is no image, or the user has a profile and the image's single embedding matches it, and issuance does not raise; a user without a profile is a 400 "No biometric profile found for this user"; a non-matching face is a 400 "Facial authentication failed"; it never verifies a password |
| AuthServiceApi.LoginAsWritten | backend/api/services/AuthService.py:86-134 | login as written: an unknown email is a 400; tokens for the user iff every truthy credential passes and issuance does not raise; past the password check, an image for a user without a profile is a 400 "No biometric profile found for this user" and a non-matching face a 400 "Facial authentication failed"; the password is checked before the face and tokens are issued last |
| AuthServiceApi.Login | backend/api/services/AuthService.py:86-134 | intended login: tokens iff the email is known, at least one credential is present, every present credential passes and issuance does not raise; the same no-profile and face-mismatch 400s; a 500 only for an image without exactly one embedding or a raising issuance; a refused password never reaches face extraction |
| AuthServiceApi.LoginHidesWhichCredentialFailed | backend/api/services/AuthService.py:90-98 | under the intended login an unknown email and a wrong password get the same 400 |
| AuthServiceApi.WrongPasswordIsServerError | backend/api/services/AuthService.py:95-97 | as written, a wrong password is a 500 carrying argon2's message |
| AuthServiceApi.EmptyPasswordIssuesTokens | backend/api/services/AuthService.py:96 | as written, an empty password passes the login DTO and gets any known user's tokens without a check |
| AuthServiceApi.EmptyPasswordIsChecked | backend/api/services/AuthService.py:96 | under the intended login an empty password succeeds only if argon2 accepts it |
| AuthServiceApi.IntendedLoginNeverRefusesWhatTheWrittenOneAcceptsWithACheck | backend/api/services/AuthService.py:86-134 | whenever the written login checks a credential and succeeds, the intended one succeeds with the same tokens |
| AuthServiceApi.PresentedRefreshToken | backend/api/services/AuthService.py:142-154 | a Bearer header gives the word after "Bearer " up to the next space; otherwise the body token; otherwise nothing |
| AuthServiceApi.BearerHeaderTakesPrecedence | backend/api/services/AuthService.py:149-151 | a Bearer header's token is used whatever the body holds |
| AuthServiceApi.NonBearerHeaderFallsBackToBody | backend/api/services/AuthService.py:149-158 | a header in another scheme is ignored; with no body token either, refresh is a 400 "Refresh token is required" |
| AuthServiceApi.AsUnauthorized | backend/api/routers/auth.py:37-44 | a refused token becomes a re-raised class, a 401 unless it already was one |
| AuthServiceApi.RefreshAsWritten | backend/api/services/AuthService.py:136-179 | no token is a 400; a new access token for the refresh token's subject iff AuthX accepts it as a refresh token and issuance does not raise; AuthX's refusal goes through the chain unchanged; every failure is a declared class |
| AuthServiceApi.Refresh | backend/api/services/AuthService.py:136-179 | as written, except that a refused token is answered as a 401; every failure is a 400 or a 401 unless signing the new token raises |
| AuthServiceApi.RefusedRefreshTokenIsServerError | backend/api/services/AuthService.py:161-179 | as written, a token AuthX refuses is a 500 carrying AuthX's message |
| AuthServiceApi.RefusedRefreshTokenIsUnauthorized | backend/api/routers/auth.py:37-44 | under the intended refresh, that token is a 401 with the same message |
| AuthServiceApi.LookupSubject | backend/api/services/AuthService.py:194 | a subject finds a user iff it reads as a decimal id that a stored user has, and then finds exactly that user |
| AuthServiceApi.StoredUserSubjectFound | backend/api/services/AuthService.py:194 | the decimal rendering of any stored user's id finds that user |
| AuthServiceApi.GetCurrentUser | backend/api/services/AuthService.py:181-206 | a missing header, or one without a second word, is a 500; a token AuthX refuses goes through the chain; a verified subject naming no stored user is a 404 "User not found"; the user's public view iff the second word verifies as an access token whose subject names a stored user |
| AuthServiceApi.RegisterThenLogin | backend/api/services/AuthService.py:29-134 | after registering, logging in with the same password issues a pair with the same claims as registration (the new id as subject, each kind with its lifetime), under both login variants |
| AuthServiceApi.RegisterThenMe | backend/api/services/AuthService.py:181-200 | after registering, presenting the issued access token returns the new user's id and email |
| AuthServiceApi.RegisterThenRefresh | backend/api/services/AuthService.py:136-173 | after registering, the issued refresh token yields an access token for the new user's id |
| AuthServiceLegacy.BadRequest | backend/services/AuthService.py:29 | the older service's errors are bare 400 HTTP exceptions with the given detail |
| AuthServiceLegacy.CatchEmbeddingError | backend/services/AuthService.py:34-35 | an extractor `FacialEmbeddingError` becomes a 400 and any other exception passes unchanged |
| AuthServiceLegacy.Register | backend/services/AuthService.py:22-61 | a taken email is a 400 and changes nothing; success iff the email is new, extraction yields one embedding and the session does not fail; success commits user and profile together and returns the new id and email; an empty or multiple extraction result is a 400; any other failure is the extractor's or the session's own exception; the invariant is kept |
| AuthServiceLegacy.FaceStep | backend/services/AuthService.py:77-90 | the face check passes iff there is no image, or the profile exists and the single embedding matches; a missing profile is a 400 "No biometric profile found for this user", a non-matching face a 400 "Facial authentication failed"; its failures are 400s or the extractor's own exception |
| AuthServiceLegacy.Login | backend/services/AuthService.py:63-93 | an unknown email is a 400; the public view iff every truthy credential passes; past the password check, the same no-profile and face-mismatch 400s; a failure is a 400, argon2's exception, or the extractor's; a refused password never reaches face extraction |
| AuthServiceLegacy.WrongPasswordEscapes | backend/services/AuthService.py:73-74 | as written, a wrong password escapes as argon2's `VerifyMismatchError`, not a 400 |
| AuthServiceLegacy.IntendedLogin | backend/services/AuthService.py:63-93 | intended login succeeds exactly when the written one does, with the same view; the same no-profile and face-mismatch 400s; every failure is a 400 or the extractor's exception |
| AuthServiceLegacy.IntendedLoginHidesWhichCredentialFailed | backend/services/AuthService.py:69-74 | under the intended login an unknown email and a wrong password get the same 400 |
| AuthServiceLegacy.NoCredentialIsEnough | backend/services/AuthService.py:72-93 | with no password (or an empty one) and no image, a known email alone returns the user's view |
| AuthServiceLegacy.EmptyExtractionIsBadRequest | backend/services/AuthService.py:32-35 | an extraction returning no embedding fails the older registration with a 400 and changes nothing |
| AuthServiceLegacy.UndetectedFaceEscapes | backend/services/AuthService.py:32-35 | an image in which DeepFace detects no face makes its own `ValueError` escape the older registration unchanged, with nothing written |
| AuthServiceLegacy.RegisterThenLogin | backend/services/AuthService.py:22-93 | after registering, logging in with the same password returns the same public view |
| FrontendSchemas.PasswordIssues | frontend/src/schemas/user.ts:23-29 | a password raises no issue iff it has at least 8 UTF-16 code units, a lowercase letter, an uppercase letter, a digit and a special character; the length issue appears iff it is shorter than 8 code units |
| FrontendSchemas.FileIssues | frontend/src/schemas/user.ts:9-19 | an image raises no issue iff it is a file of at most 5 MiB of an allowed type; a non-file gets just the "select a file" issue |
| FrontendSchemas.RegisterIssues | frontend/src/schemas/user.ts:33-41 | a registration form is accepted iff email, password and image pass and the confirmation matches; the mismatch is reported iff the image is a file and the passwords differ |
| FrontendSchemas.LoginIssues | frontend/src/schemas/user.ts:43-46 | a login form is accepted iff the email passes and each present credential passes |
| FrontendSchemas.LoginSchemaAllowsNeitherAndBoth | frontend/src/schemas/user.ts:43-46 | the browser accepts a login with neither credential and one with both |
| FrontendSchemas.PasswordRulesAgreeUpTo32 | frontend/src/schemas/user.ts:23-29 | for passwords whose letters and digits are ASCII: the browser accepts every password the backend accepts; the backend accepts every browser-accepted one of 8 to 32 characters, so every one of at most 32 within the Basic Multilingual Plane |
| FrontendSchemas.JsLength | frontend/src/schemas/user.ts:25 | a string's JavaScript length is between its character count and twice it, and equals the count within the Basic Multilingual Plane |
| FrontendSchemas.AstralPasswordPassesOnlyInTheBrowser | frontend/src/schemas/user.ts:25 | "Aa1" followed by three U+1F600 passes the browser's length rule and is too short for the backend |
| FrontendSchemas.LongPasswordPassesOnlyInTheBrowser | frontend/src/schemas/user.ts:23-29 | a strong 40-character password passes the browser and fails the backend |
| FrontendSchemas.FileLimitMatchesBackend | frontend/src/schemas/user.ts:3-12 | the browser's limit is 5242880 bytes, inclusive, like the backend's |
| ApiClient.DropTrailingSlash | frontend/src/lib/api/index.ts:14 | removes at most one character, a trailing slash, and keeps the rest as a prefix |
| ApiClient.DropLeadingSlashes | frontend/src/lib/api/index.ts:15 | removes only slashes, leaves no leading slash, and keeps the rest as a suffix |
| ApiClient.QueryParams | frontend/src/lib/api/index.ts:18-21 | a parameter appears iff the query has that key with a non-null value, rendered as a string |
| ApiClient.BuildUrl | frontend/src/lib/api/index.ts:13-24 | the base is the API URL minus one trailing slash, then "/"; the path has no leading slash; the parameters are the non-null query entries |
| ApiClient.OnlyOneTrailingSlashDropped | frontend/src/lib/api/index.ts:14 | an API URL ending in "//" keeps one of the two slashes |
| ApiClient.HookRequest | frontend/src/lib/api/index.ts:53-65 | a hook fetches iff it is a query or its data is not undefined, from the built URL; a mutation with truthy data sends its verb and body, and every other fetch sends neither |
| ApiClient.NullDataOnMutationFetchesWithoutBody | frontend/src/lib/api/index.ts:56-62 | a mutation given null still fetches, with no verb and no body |
| ApiClient.FetchHeaders | frontend/src/lib/api/index.ts:26-32 | for caller headers keyed by lower-case name: the content type is always JSON; a truthy token sets a Bearer authorization; every other header is the caller's |
| ApiClient.AnonymousRequestHeaders | frontend/src/lib/api/index.ts:29-32 | with no headers and no or an empty token, only the content type is sent |
| ApiClient.HandleResponse | frontend/src/lib/api/index.ts:40-45 | a 2xx yields its parsed JSON; a 404 shows the not-found page without reading the body; any other status throws its parsed body; a body that is not JSON, wherever it is read, is a SyntaxError |
| ApiClient.NotFoundPageIgnoresBody | frontend/src/lib/api/index.ts:40-42 | a 404's outcome does not depend on its body, while a body that is not JSON on any other status is a SyntaxError |
| WebcamCapture.Payload | frontend/src/components/webcam-capture.tsx:17-18 | the text between the first comma and the next one, or "undefined" when there is no comma |
| WebcamCapture.DataUrlToFile | frontend/src/components/webcam-capture.tsx:16-25 | the file holds one byte per decoded character, that character's code modulo 256, in order, named image.webp of type image/webp; an undecodable payload throws |
| WebcamCapture.Capture | frontend/src/components/webcam-capture.tsx:39-47 | a capture is reported only when the webcam is mounted and the screenshot is non-empty, with that screenshot and the file made from it |
| ClientUserStore.Reduce | frontend/src/store/user-store.ts:15-16 | `setUser` makes the user exactly the argument and `logout` clears it |
| ClientUserStore.RunAppend | frontend/src/store/user-store.ts:13-17 | running two action sequences one after the other is running their concatenation |
| ClientUserStore.LastActionDecides | frontend/src/store/user-store.ts:15-16 | after any non-empty action sequence the state is the one its last action sets |
| ClientUserStore.LogoutIdempotent | frontend/src/store/user-store.ts:15-16 | logging out twice is logging out once, and `setUser(null)` is logging out |
| ClientUserStore.StoredToken | frontend/src/lib/api/index.ts:27 | the fetcher sees a token iff a user is stored, and it is that user's token |
| ClientUserStore.AuthorizationFollowsLastAction | frontend/src/lib/api/index.ts:27-32 | requests carry a Bearer authorization iff the last store action set a user with a non-empty token, and it carries that token |
| ClientUserStore.HookSendsJsonWithStoredToken | frontend/src/lib/api/index.ts:26-65 | every request a hook sends is JSON, carries the stored token iff it is not empty, and has a body (the data, with the hook's verb) iff it is a mutation with truthy data |
| ClientUserStore.LoggedOutRequestsAreAnonymous | frontend/src/store/user-store.ts:16 | after a logout, whatever came before, a hook's request carries only the content type |
| Text.Lower | backend/api/validators/field_validators.py:116 | lower-casing keeps the length and lower-cases each ASCII letter in place |
| Text.JoinSplit | backend/api/services/AuthService.py:150 | splitting on a character and re-joining with it gives the string back |
| Text.SplitPiecesAvoidSeparator | backend/api/services/AuthService.py:150 | no piece of a split contains the separator |
| Text.ParseNatToString | backend/api/services/AuthService.py:194 | reading back a decimal id gives the id |
| Text.NatToStringInjective | backend/api/services/AuthService.py:63 | distinct ids never give the same token subject |

## Left out

- The HTTP layer is not modelled: routing, FastAPI's multipart form decoding, and the `/me` route's AuthX dependency, which checks the access token before the service runs. The service operations are modelled on their own. Whether an empty form field arrives as `""` or is replaced by the default `None` is a decoder detail this model does not settle.
- pydantic's and zod's own machinery is not modelled, including the email syntax check (a parameter) and error-message formatting. Errors are kept as a list of field errors or issues.
- `Directory.Store` keeps rows in sequences rather than a map from id, so that `select(...).first()` and `session.get` can be stated over them. The ORM, SQL and the `biometric_profile` relationship loading are reduced to the lookups in `Directory`.
- argon2, DeepFace, the JWT library and AuthX are abstract parameters, along with their configuration (time and memory cost, model name, detector backend, cosine metric). Their exceptions are represented by class name, whether the class derives from `ValueError`, and message.
- `api/utils/deepface_utils.py`, which the current revision imports, is not part of this model. The current revision is assumed to behave like `backend/utils/deepface_utils.py`.
- The older revision's `LoginDto` module is not part of this model. The older login takes the same three fields as the current one.
- The older `constants.py` defines no resolution bounds, although the older validator imports them. `Config.LegacyImageBounds` takes those bounds as parameters.
- Collaborator failures not modelled: password hashing never fails, and the session's `refresh` after the commit never fails. Flush and commit faults and a raising token issuance are modelled.
- AuthServiceApi.Register: token issuance is one fault, raised when the access token is signed; a failure signing only the refresh token is not told apart from it.
- AuthServiceApi.FaceStep: the face comparison (`verify_facial_embeddings`, which calls DeepFace's `verify`) is a total boolean parameter, `Deps.matches`; an exception it raises is not modelled. The same holds for AuthServiceLegacy.FaceStep.
- AuthServiceApi.RegisterThenLogin: a token is identified with its claims (subject, type, lifetime) through the parameter `encode`. AuthX also stamps the issue time, an expiry counted from it and a unique id, so the strings it returns differ between registration and login; the lemma's equality is an equality of claims.
- ExceptionHandlers.Respond: AuthX's own handlers, registered by `authx.handle_errors(app)` (backend/api/main.py:40), are not modelled. An AuthX exception raised outside the services, such as by the `/me` route's token dependency, is answered by them rather than by the server-error handler.
- Concurrency is not modelled: two registrations racing on one email are outside the model. The database's unique constraint is represented by the invariant `Directory.Valid` and the lookup that precedes the insert.
- `Text`'s character classes are ASCII only. Python's `str.isdigit`, `islower`, `isupper` and `isalnum` also accept non-ASCII characters.
- FrontendSchemas.PasswordRulesAgreeUpTo32: holds only for passwords whose letters and digits are ASCII, because `Text`'s classes are ASCII while the backend uses Python's Unicode `isupper` and `isalnum` (backend/api/validators/field_validators.py:47,49) and the browser uses ASCII regular expressions. With Unicode classes both directions fail: "Éa1!aaaa" passes the backend ('É' is upper case) and fails the browser's `/[A-Z]/`; "Aa1ééééé" passes the browser's `/[^a-zA-Z0-9]/` and fails the backend's non-alphanumeric rule.
- AuthServiceApi.LookupSubject: a subject is an id only when it is a non-empty run of ASCII digits, leading zeros read as the decimal id ("05" is 5). How the database would coerce any other string (spaces, signs) is not modelled.
- ApiClient.BuildUrl: the `URL` constructor's resolution of the path against the base, and the final `toString`, are not modelled. The result keeps its three ingredients.
- SWR's caching, revalidation and `config` options are not modelled, nor `credentials: "include"`. `ApiClient.HookRequest` models only the key and fetcher choice.
- `WebcamCapture`: `atob` is a parameter, and `getScreenshot` is represented by its optional result. The `File` constructor is represented by its bytes, name and type.
- ApiClient.QueryParams: a number is an integer written in decimal. JavaScript numbers are doubles, and `String(value)` also writes fractions ("1.5") and exponent forms ("1e+21" for 1e21), so the rendering agrees with the browser only for integers below 10^21 in magnitude.
- ApiClient.FetchHeaders: `new Headers(...)` lower-cases the caller's header names; the model takes the caller's headers already in that form.
- The user store's `persist` middleware (local-storage persistence) is not modelled.
- `Config.LoadSettings`: the secret keys, the database URL and the CORS origins are not modelled. Lifetimes are whole, non-negative seconds, while pydantic accepts any `timedelta` as an override, fractional and negative ones included.

## Findings

| source | as written | input that shows it | evidently intended | confidence | as-written member | corrected member |
|---|---|---|---|---|---|---|
| backend/api/services/AuthService.py:95-97 | a wrong password makes argon2 raise `VerifyMismatchError`, which is not a `ValueError`, so the chain answers 500 with argon2's message | a known email with a non-empty wrong password | a 400 "Invalid email or password", the same answer as an unknown email | not executed; high (argon2-cffi's verify raises instead of returning False) | AuthServiceApi.WrongPasswordIsServerError | AuthServiceApi.LoginHidesWhichCredentialFailed |
| backend/services/AuthService.py:73-74 | the same `VerifyMismatchError` escapes the older service unhandled, as a non-HTTP exception | a known email with a non-empty wrong password | a 400 "Invalid email or password" | not executed; high | AuthServiceLegacy.WrongPasswordEscapes | AuthServiceLegacy.IntendedLoginHidesWhichCredentialFailed |
| backend/api/services/AuthService.py:96 | the login DTO counts an empty password as provided (`is not None`), but the service skips an empty password (`if request.password and ...`), so no credential is checked | a known email, password `""`, no image | the empty password is verified like any other, so login fails | not executed; medium (FastAPI's form decoding may turn an empty field into `None` first, and the DTO then rejects it) | AuthServiceApi.EmptyPasswordIssuesTokens | AuthServiceApi.EmptyPasswordIsChecked |
| backend/api/services/AuthService.py:161-179 | a refresh token that AuthX refuses raises AuthX's own exception, which the chain turns into a 500 | an expired refresh token in the body | a 401, which the route declares for this case | not executed; medium | AuthServiceApi.RefusedRefreshTokenIsServerError | AuthServiceApi.RefusedRefreshTokenIsUnauthorized |

=== FILE: api_client.dfy ===
/**
 * The browser's API client: URL building, the rule that decides whether a hook fetches at
 * all and what it sends, the headers of every request, and what a response turns into.
 *
 * The URL is kept as its three ingredients (base, relative path, query parameters); how the
 * `URL` constructor resolves the path against the base is the browser's business. Header
 * names are kept lower-cased, as the `Headers` object compares them.
 */
module ApiClient {
  import opened Wrappers
  import opened Text

  /**
   * A query value as the caller wrote it. Numbers are integers, which `String` writes in
   * plain decimal when they are below 10^21 in magnitude; fractions are not modelled.
   */
  datatype QueryValue = Undefined | Null | Str(s: string) | Num(n: int) | Bool(b: bool)

  predicate Nullish(v: QueryValue)
  {
    v.Undefined? || v.Null?
  }

  /** `String(value)` for a value that is not null or undefined. */
  function StringOf(v: QueryValue): string
    requires !Nullish(v)
  {
    match v
    case Str(s) => s
    case Num(n) => IntToString(n)
    case Bool(b) => if b then "true" else "false"
  }

  datatype Url = Url(base: string, path: string, params: seq<(string, string)>)

  /** `s.replace(/\/$/, "")`: one trailing slash, if any, is dropped. */
  function DropTrailingSlash(s: string): (r: string)
    ensures StartsWith(s, r)
    ensures |r| == |s| || |r| == |s| - 1
    ensures |r| < |s| <==> EndsWith(s, "/")
  {
    if |s| > 0 && s[|s| - 1] == '/' then s[..|s| - 1] else s
  }

  /** `s.replace(/^\/+/, "")`: every leading slash is dropped. */
  function DropLeadingSlashes(s: string): (r: string)
    ensures EndsWith(s, r)
    ensures forall k :: 0 <= k < |s| - |r| ==> s[k] == '/'
    ensures !StartsWith(r, "/")
  {
    if |s| > 0 && s[0] == '/' then DropLeadingSlashes(s[1..]) else s
  }

  /** The query entries whose value is neither null nor undefined, as strings, in order. */
  function QueryParams(entries: seq<(string, QueryValue)>): (r: seq<(string, string)>)
    ensures |r| <= |entries|
    ensures forall k, v :: (k, v) in entries && !Nullish(v) ==> (k, StringOf(v)) in r
    ensures forall p :: p in r ==> exists v :: (p.0, v) in entries && !Nullish(v) && p.1 == StringOf(v)
  {
    if |entries| == 0 then []
    else
      var rest := QueryParams(entries[1..]);
      assert forall e :: e in entries[1..] ==> e in entries;
      assert forall e :: e in entries ==> e == entries[0] || e in entries[1..];
      if Nullish(entries[0].1) then rest
      else [(entries[0].0, StringOf(entries[0].1))] + rest
  }

  /**
   * `buildUrl(path, query)`: the base is the configured API URL without one trailing slash
   * (or empty when unset or empty), followed by a slash; the path loses its leading
   * slashes; the parameters are the query's non-null entries.
   */
  function BuildUrl(apiUrl: Option<string>, path: string, query: Option<seq<(string, QueryValue)>>)
    : (u: Url)
    ensures apiUrl.None? ==> u.base == "/"
    ensures apiUrl.Some? ==> u.base == DropTrailingSlash(apiUrl.value) + "/"
    ensures EndsWith(path, u.path) && !StartsWith(u.path, "/")
    ensures query.None? ==> u.params == []
    ensures query.Some? ==> u.params == QueryParams(query.value)
  {
    var base := if apiUrl.Some? then DropTrailingSlash(apiUrl.value) else "";
    Url(base + "/", DropLeadingSlashes(path), if query.Some? then QueryParams(query.value) else [])
  }

  /** An API URL ending in several slashes keeps all but one of them. */
  lemma OnlyOneTrailingSlashDropped(prefix: string)
    ensures BuildUrl(Some(prefix + "//"), "", None).base == prefix + "//"
  {
    assert DropTrailingSlash(prefix + "//") == prefix + "/";
  }

  datatype Method = GET | POST | PUT | PATCH | DELETE

  /** The hook's `data` argument; a present value carries its JSON text and truthiness. */
  datatype HookData = NoData | NullData | Data(json: string, truthy: bool)

  /** A request the hook makes: method (`None` is fetch's default, GET) and body. */
  datatype Request = Request(url: Url, verb: Option<Method>, body: Option<string>)

  predicate IsMutation(m: Method)
  {
    m != GET
  }

  /**
   * The hook: the SWR key is `null` (nothing is fetched) unless the hook is a query or
   * `data` is not undefined; a mutation with truthy data sends its verb and the JSON
   * body, and every other fetch is a plain call without either.
   */
  function HookRequest(verb: Method, data: HookData, url: Url): (r: Option<Request>)
    ensures r.Some? <==> !IsMutation(verb) || !data.NoData?
    ensures r.Some? ==> r.value.url == url
    ensures r.Some? && IsMutation(verb) && data.Data? && data.truthy ==>
      r.value.verb == Some(verb) && r.value.body == Some(data.json)
    ensures r.Some? && !(IsMutation(verb) && data.Data? && data.truthy) ==>
      r.value.verb.None? && r.value.body.None?
  {
    var shouldFetch := !IsMutation(verb) || !data.NoData?;
    if !shouldFetch then None
    else if IsMutation(verb) && data.Data? && data.truthy then
      Some(Request(url, Some(verb), Some(data.json)))
    else Some(Request(url, None, None))
  }

  /**
   * A mutation hook given `null` does fetch (null is not undefined) but, the data being
   * falsy, falls back to the plain fetcher: the request carries no verb and no body.
   */
  lemma NullDataOnMutationFetchesWithoutBody(verb: Method, url: Url)
    requires IsMutation(verb)
    ensures HookRequest(verb, NullData, url) == Some(Request(url, None, None))
  {
  }

  const ContentType := "content-type"
  const Authorization := "authorization"

  /** A token is sent only when the stored user has one and it is not empty. */
  predicate Truthy(token: Option<string>)
  {
    token.Some? && token.value != ""
  }

  /**
   * `fetcher`'s headers: the caller's headers, with the content type always set to JSON and
   * a Bearer authorization set when the stored token is truthy; nothing else changes. The
   * caller's headers are given as the `Headers` object holds them, keyed by lower-case name.
   */
  function FetchHeaders(given: map<string, string>, token: Option<string>): (h: map<string, string>)
    ensures ContentType in h && h[ContentType] == "application/json"
    ensures Truthy(token) ==> Authorization in h && h[Authorization] == "Bearer " + token.value
    ensures !Truthy(token) ==>
      (Authorization in h <==> Authorization in given)
      && (Authorization in given ==> h[Authorization] == given[Authorization])
    ensures forall k :: k != ContentType && k != Authorization ==>
      (k in h <==> k in given) && (k in h ==> h[k] == given[k])
  {
    var withType := given[ContentType := "application/json"];
    if Truthy(token) then withType[Authorization := "Bearer " + token.value] else withType
  }

  /** With no caller headers and no token, only the content type is sent. */
  lemma AnonymousRequestHeaders()
    ensures FetchHeaders(map[], None) == map[ContentType := "application/json"]
    ensures FetchHeaders(map[], Some("")) == map[ContentType := "application/json"]
  {
  }

  datatype Response = Response(status: nat, body: string)

  /**
   * What the fetcher does with a response: the value its body parses to, the not-found
   * page, a throw of the parsed body as the API error, or the `SyntaxError` that
   * `res.json()` rejects with when the body is not JSON.
   */
  datatype Outcome<J> = Parsed(value: J) | NotFoundPage | Thrown(error: J) | SyntaxError

  predicate Ok(r: Response)
  {
    200 <= r.status <= 299
  }

  /**
   * `res.json()` is `parse`, which gives None for a body that is not JSON. A response
   * outside 200-299 is an error: a 404 shows the not-found page without reading the body,
   * any other is thrown with its parsed body as the API error; an ok response yields its
   * parsed body. Wherever the body is read, a body that does not parse is a `SyntaxError`.
   */
  function HandleResponse<J>(parse: string -> Option<J>, r: Response): (o: Outcome<J>)
    ensures o.Parsed? <==> Ok(r) && parse(r.body).Some?
    ensures o.NotFoundPage? <==> r.status == 404
    ensures o.Thrown? <==> !Ok(r) && r.status != 404 && parse(r.body).Some?
    ensures o.SyntaxError? <==> r.status != 404 && parse(r.body).None?
    ensures o.Parsed? ==> o.value == parse(r.body).value
    ensures o.Thrown? ==> o.error == parse(r.body).value
  {
    if !Ok(r) && r.status == 404 then NotFoundPage
    else
      match parse(r.body)
      case None => SyntaxError
      case Some(v) => if Ok(r) then Parsed(v) else Thrown(v)
  }

  /**
   * Only the 404 branch never reads the body: its outcome is the same whatever the body
   * is, while on every other status a body that does not parse turns the outcome into a
   * `SyntaxError`, however the status reads.
   */
  lemma NotFoundPageIgnoresBody<J>(parse: string -> Option<J>, status: nat, a: string, b: string)
    ensures status == 404 ==>
      HandleResponse(parse, Response(status, a)).NotFoundPage?
      && HandleResponse(parse, Response(status, b)).NotFoundPage?
    ensures status != 404 && parse(a).None? ==>
      HandleResponse(parse, Response(status, a)).SyntaxError?
  {
  }
}

=== FILE: auth_service_api.dfy ===
/**
 * The current revision's `AuthService`: registration, login by password or face, access-token
 * refresh and "who am I".
 *
 * Every operation runs its body inside the same `try`; what escapes is translated by the
 * `except` chain that follows it (`CredentialHandler` for register and login,
 * `TokenHandler` for refresh and get-current-user). A run returns the result or the
 * escaping exception, the store afterwards (the session is rolled back unless the commit
 * succeeds) and the collaborator calls made.
 *
 * `LoginAsWritten` and `RefreshAsWritten` model the code as it stands; `Login` and `Refresh`
 * are the evidently intended behaviour (see the lemmas at the end of the module).
 */
module AuthServiceApi {
  import opened Wrappers
  import opened Text
  import opened HttpExceptions
  import opened ImageValidation
  import opened Dtos
  import opened Directory
  import opened Collaborators

  datatype AuthenticatedDto = AuthenticatedDto(accessToken: string, refreshToken: string)
  datatype NewAccessTokenDto = NewAccessTokenDto(accessToken: string)

  const UserExistsMessage := "User already exists"
  const InvalidCredentialsMessage := "Invalid email or password"
  const NoProfileMessage := "No biometric profile found for this user"
  const FaceMismatchMessage := "Facial authentication failed"
  const RefreshRequiredMessage := "Refresh token is required"
  const UserNotFoundMessage := "User not found"

  /** The classes every handler re-raises unchanged. */
  predicate Reraised(e: Exc)
  {
    IsA(e, BadRequestError) || IsA(e, UnauthorizedError) || IsA(e, NotFoundError)
  }

  /** What can escape the service: a re-raised class or an `InternalServerError`. */
  predicate Declared(e: Exc)
  {
    Reraised(e) || IsA(e, InternalServerError)
  }

  /**
   * The `except` chain of `register` and `login`: the three application classes are
   * re-raised, a `ValueError` becomes a `BadRequestError` and anything else an
   * `InternalServerError`, both carrying `str(e)`.
   */
  function CredentialHandler(e: Exc): (r: Exc)
    ensures Declared(r)
    ensures Reraised(e) ==> r == e
    ensures !Reraised(e) ==> r.detail == Str(e)
    ensures !Reraised(e) ==> (IsA(r, BadRequestError) <==> e.PyExc? && e.isValueError)
  {
    if Reraised(e) then e
    else if e.PyExc? && e.isValueError then Raise(BadRequestError, Str(e))
    else Raise(InternalServerError, Str(e))
  }

  /** The `except` chain of `refresh` and `get_current_user`: it has no `ValueError` clause. */
  function TokenHandler(e: Exc): (r: Exc)
    ensures Declared(r)
    ensures Reraised(e) ==> r == e
    ensures !Reraised(e) ==> IsA(r, InternalServerError) && r.detail == Str(e)
  {
    if Reraised(e) then e else Raise(InternalServerError, Str(e))
  }

  /** The two chains differ only on `ValueError`s, which only the first turns into a 400. */
  lemma HandlersDifferOnlyOnValueErrors(e: Exc)
    ensures CredentialHandler(e) != TokenHandler(e) <==>
      !Reraised(e) && e.PyExc? && e.isValueError
  {
  }

  /** A `ForbiddenError` raised inside the `try` is not re-raised: it escapes as a 500. */
  lemma ForbiddenIsNotReraised(detail: string)
    ensures IsA(CredentialHandler(Raise(ForbiddenError, detail)), InternalServerError)
    ensures IsA(TokenHandler(Raise(ForbiddenError, detail)), InternalServerError)
  {
  }

  function Handle<T>(a: Run<T>, handler: Exc -> Exc): (r: Run<T>)
    ensures r.store == a.store && r.trace == a.trace
    ensures a.result.Success? ==> r.result == a.result
    ensures a.result.Failure? ==> r.result == Failure(handler(a.result.error))
  {
    if a.result.Success? then a else a.(result := Failure(handler(a.result.error)))
  }

  /** The claims of the access and refresh tokens issued for user `id`. */
  function AccessClaims(deps: Deps, id: nat): Token
  {
    Token(NatToString(id), AccessToken, deps.accessExpires)
  }

  function RefreshClaims(deps: Deps, id: nat): Token
  {
    Token(NatToString(id), RefreshToken, deps.refreshExpires)
  }

  function IssuePair(deps: Deps, id: nat): AuthenticatedDto
  {
    AuthenticatedDto(deps.encode(AccessClaims(deps, id)), deps.encode(RefreshClaims(deps, id)))
  }

  const Issue := [IssueAccess, IssueRefresh]

  /**
   * Issuing the pair after the calls `done`: AuthX's exception, raised when it signs the
   * access token, if it raises one; the pair otherwise.
   */
  function IssueTokens(s: Store, deps: Deps, id: nat, done: seq<Call>): Run<AuthenticatedDto>
  {
    if deps.issueFault.Some? then Run(Failure(deps.issueFault.value), s, done + [IssueAccess])
    else Run(Success(IssuePair(deps, id)), s, done + Issue)
  }

  /** Every call `register` can make, in the order it makes them. */
  const RegisterSteps := [LookupEmail, ExtractEmbedding, HashPassword, AddUser, Flush,
                          AddProfile, Commit, IssueAccess, IssueRefresh]

  /** Every prefix of `register`'s steps extracts before writing, commits once and issues last. */
  lemma RegisterStepsOrdered(n: nat)
    requires n <= |RegisterSteps|
    ensures ExtractsBeforeWriting(RegisterSteps[..n])
    ensures CommitsAtMostOnce(RegisterSteps[..n])
    ensures IssuesLast(RegisterSteps[..n])
  {
    var t := RegisterSteps[..n];
    forall j | 0 <= j < |t| && IsWrite(t[j]) ensures ExtractEmbedding in t[..j] {
      assert t[..j][1] == ExtractEmbedding;
    }
  }

  // ---------------------------------------------------------------------------------------
  // register

  /** The body of `register`'s `try`. */
  function RegisterAttempt(s: Store, deps: Deps, req: RegisterDto): Run<AuthenticatedDto>
  {
    if FindByEmail(s.users, req.email).Some? then
      Run(Failure(Raise(BadRequestError, UserExistsMessage)), s, [LookupEmail])
    else
      match GenerateFacialEmbedding(deps.extract(req.image))
      case Failure(e) => Run(Failure(e), s, [LookupEmail, ExtractEmbedding])
      case Success(embedding) =>
        var flushed := [LookupEmail, ExtractEmbedding, HashPassword, AddUser, Flush];
        if deps.flushFault.Some? then Run(Failure(deps.flushFault.value), s, flushed)
        else if deps.commitFault.Some? then
          Run(Failure(deps.commitFault.value), s, flushed + [AddProfile, Commit])
        else
          IssueTokens(Insert(s, req.email, deps.hash(req.password), embedding), deps, s.nextId,
                      flushed + [AddProfile, Commit])
  }

  /** The email is new, the image yields one embedding, and the session flushes and commits. */
  predicate Committed(s: Store, deps: Deps, req: RegisterDto)
  {
    && FindByEmail(s.users, req.email).None?
    && deps.extract(req.image).OneFace?
    && deps.flushFault.None? && deps.commitFault.None?
  }

  /**
   * `register`: a taken email is a 400 "User already exists"; otherwise the face is
   * extracted before anything is written, and the user and profile rows are committed
   * together, once, or not at all. After the commit an access and a refresh token whose
   * subject is the new user's id are issued; if issuing them raises, the request fails
   * although the user stays committed.
   */
  function Register(s: Store, deps: Deps, req: RegisterDto): (r: Run<AuthenticatedDto>)
    ensures FindByEmail(s.users, req.email).Some? ==>
      r.result == Failure(Raise(BadRequestError, UserExistsMessage)) && r.store == s
    ensures r.result.Success? <==> Committed(s, deps, req) && deps.issueFault.None?
    ensures Committed(s, deps, req) ==>
      r.store == Insert(s, req.email, deps.hash(req.password), deps.extract(req.image).embedding)
    ensures !Committed(s, deps, req) ==> r.store == s
    ensures r.result.Success? ==> r.result.value == IssuePair(deps, s.nextId)
    ensures Committed(s, deps, req) && deps.issueFault.Some? ==>
      r.result == Failure(CredentialHandler(deps.issueFault.value))
    ensures r.result.Failure? ==> Declared(r.result.error)
    ensures ExtractsBeforeWriting(r.trace) && CommitsAtMostOnce(r.trace) && IssuesLast(r.trace)
    ensures Valid(s) ==> Valid(r.store)
  {
    var a := RegisterAttempt(s, deps, req);
    assert a.trace == RegisterSteps[..|a.trace|];
    RegisterStepsOrdered(|a.trace|);
    assert Valid(s) ==> Valid(a.store) by {
      if Committed(s, deps, req) && Valid(s) {
        InsertPreservesValid(s, req.email, deps.hash(req.password), deps.extract(req.image).embedding);
      }
    }
    Handle(a, CredentialHandler)
  }

  /**
   * An extraction that returns no embedding (or several) fails registration with a 500:
   * `FacialEmbeddingError` is not a `ValueError`, so the generic clause handles it.
   */
  lemma EmptyExtractionAtRegistrationIsServerError(s: Store, deps: Deps, req: RegisterDto)
    requires FindByEmail(s.users, req.email).None?
    requires deps.extract(req.image).EmptyResult? || deps.extract(req.image).SeveralResults?
    ensures Register(s, deps, req).result == Failure(Raise(InternalServerError, EmbeddingFailedMessage))
    ensures Register(s, deps, req).store == s
  {
  }

  /**
   * With detection enforced, an image in which DeepFace detects no face makes it raise its
   * own `ValueError`, which passes through the extractor and becomes a 400 with its message.
   */
  lemma UndetectedFaceAtRegistrationIsBadRequest(s: Store, deps: Deps, req: RegisterDto, message: string)
    requires FindByEmail(s.users, req.email).None?
    requires deps.extract(req.image) == Crash(PyExc("ValueError", true, message))
    ensures Register(s, deps, req).result == Failure(Raise(BadRequestError, message))
    ensures Register(s, deps, req).store == s
  {
  }

  /**
   * Tokens are issued after the commit: when issuing them raises, the request fails with the
   * chain's answer, yet the user is stored, so registering again with the same email is
   * refused with "User already exists".
   */
  lemma IssuanceFailureKeepsTheUser(s: Store, deps: Deps, req: RegisterDto, retry: Deps)
    requires Committed(s, deps, req) && deps.issueFault.Some?
    requires Valid(s)
    ensures var r := Register(s, deps, req);
      && r.result == Failure(CredentialHandler(deps.issueFault.value))
      && FindByEmail(r.store.users, req.email).Some?
      && Register(r.store, retry, req).result == Failure(Raise(BadRequestError, UserExistsMessage))
  {
    InsertLookups(s, req.email, deps.hash(req.password), deps.extract(req.image).embedding);
  }

  // ---------------------------------------------------------------------------------------
  // login

  /**
   * The face check shared by both login variants, run after the password check: with no
   * image, tokens are issued; otherwise the user needs a profile, the image must yield one
   * face, and that face must match the profile.
   */
  function FaceStep(s: Store, deps: Deps, u: UserRow, image: Option<Upload>, done: seq<Call>)
    : (r: Run<AuthenticatedDto>)
    ensures r.store == s
    ensures r.result.Success? ==> r.result.value == IssuePair(deps, u.id)
    ensures r.result.Success? <==> FaceAccepted(s, deps, u, image) && deps.issueFault.None?
    ensures image.Some? && ProfileOf(s.profiles, u.id).None? ==>
      r.result == Failure(Raise(BadRequestError, NoProfileMessage))
    ensures FaceMismatch(s, deps, u, image) ==>
      r.result == Failure(Raise(BadRequestError, FaceMismatchMessage))
    ensures FaceAccepted(s, deps, u, image) && deps.issueFault.Some? ==>
      r.result == Failure(deps.issueFault.value)
    ensures |r.trace| > |done| && r.trace[..|done|] == done
    ensures forall k :: |done| <= k < |r.trace| ==> r.trace[k] != VerifyPassword
    ensures IssueAccess !in done && IssueRefresh !in done ==> IssuesLast(r.trace)
  {
    match image
    case None => IssueTokens(s, deps, u.id, done)
    case Some(img) =>
      match ProfileOf(s.profiles, u.id)
      case None => Run(Failure(Raise(BadRequestError, NoProfileMessage)), s, done + [LoadProfile])
      case Some(p) =>
        match GenerateFacialEmbedding(deps.extract(img))
        case Failure(e) => Run(Failure(e), s, done + [LoadProfile, ExtractEmbedding])
        case Success(embedding) =>
          var compared := done + [LoadProfile, ExtractEmbedding, MatchFaces];
          if !deps.matches(embedding, p.embedding) then
            Run(Failure(Raise(BadRequestError, FaceMismatchMessage)), s, compared)
          else IssueTokens(s, deps, u.id, compared)
  }

  /** The body of `login`'s `try`, as written. */
  function LoginAttemptAsWritten(s: Store, deps: Deps, req: LoginDto): Run<AuthenticatedDto>
  {
    match FindByEmail(s.users, req.email)
    case None => Run(Failure(Raise(BadRequestError, InvalidCredentialsMessage)), s, [LookupEmail])
    case Some(u) =>
      if !PasswordGiven(req.password) then FaceStep(s, deps, u, req.image, [LookupEmail])
      else
        match VerifyRaises(deps.verify(u.passwordHash, req.password.value))
        case Some(e) => Run(Failure(e), s, [LookupEmail, VerifyPassword])
        case None => FaceStep(s, deps, u, req.image, [LookupEmail, VerifyPassword])
  }

  /**
   * `login` as written. An unknown email is a 400. A non-empty password is verified by
   * argon2, which raises on a mismatch; an empty one is skipped. An image is then checked
   * against the stored profile: a user without one is a 400 "No biometric profile found
   * for this user", and a face that does not match is a 400 "Facial authentication failed".
   */
  function LoginAsWritten(s: Store, deps: Deps, req: LoginDto): (r: Run<AuthenticatedDto>)
    ensures r.store == s
    ensures FindByEmail(s.users, req.email).None? ==>
      r.result == Failure(Raise(BadRequestError, InvalidCredentialsMessage))
    ensures r.result.Success? <==>
      && FindByEmail(s.users, req.email).Some?
      && TruthyPasswordAccepted(deps, FindByEmail(s.users, req.email).value, req.password)
      && FaceAccepted(s, deps, FindByEmail(s.users, req.email).value, req.image)
      && deps.issueFault.None?
    ensures r.result.Success? ==> r.result.value == IssuePair(deps, FindByEmail(s.users, req.email).value.id)
    ensures FindByEmail(s.users, req.email).Some? && req.image.Some?
      && TruthyPasswordAccepted(deps, FindByEmail(s.users, req.email).value, req.password)
      && ProfileOf(s.profiles, FindByEmail(s.users, req.email).value.id).None?
      ==> r.result == Failure(Raise(BadRequestError, NoProfileMessage))
    ensures FindByEmail(s.users, req.email).Some?
      && TruthyPasswordAccepted(deps, FindByEmail(s.users, req.email).value, req.password)
      && FaceMismatch(s, deps, FindByEmail(s.users, req.email).value, req.image)
      ==> r.result == Failure(Raise(BadRequestError, FaceMismatchMessage))
    ensures r.result.Failure? ==> Declared(r.result.error)
    ensures PasswordBeforeFace(r.trace) && IssuesLast(r.trace)
  {
    LoginAttemptAsWrittenFacts(s, deps, req);
    Handle(LoginAttemptAsWritten(s, deps, req), CredentialHandler)
  }

  /** What the written `try` body does before the `except` chain sees it. */
  lemma LoginAttemptAsWrittenFacts(s: Store, deps: Deps, req: LoginDto)
    ensures var a := LoginAttemptAsWritten(s, deps, req);
      && a.store == s
      && (FindByEmail(s.users, req.email).None? ==>
            a.result == Failure(Raise(BadRequestError, InvalidCredentialsMessage)))
      && (a.result.Success? <==>
            && FindByEmail(s.users, req.email).Some?
            && TruthyPasswordAccepted(deps, FindByEmail(s.users, req.email).value, req.password)
            && FaceAccepted(s, deps, FindByEmail(s.users, req.email).value, req.image)
            && deps.issueFault.None?)
      && (a.result.Success? ==> a.result.value == IssuePair(deps, FindByEmail(s.users, req.email).value.id))
      && (FindByEmail(s.users, req.email).Some? && req.image.Some?
          && TruthyPasswordAccepted(deps, FindByEmail(s.users, req.email).value, req.password)
          && ProfileOf(s.profiles, FindByEmail(s.users, req.email).value.id).None?
          ==> a.result == Failure(Raise(BadRequestError, NoProfileMessage)))
      && (FindByEmail(s.users, req.email).Some?
          && TruthyPasswordAccepted(deps, FindByEmail(s.users, req.email).value, req.password)
          && FaceMismatch(s, deps, FindByEmail(s.users, req.email).value, req.image)
          ==> a.result == Failure(Raise(BadRequestError, FaceMismatchMessage)))
      && PasswordBeforeFace(a.trace) && IssuesLast(a.trace)
  {
    match FindByEmail(s.users, req.email)
    case None =>
    case Some(u) =>
      if !PasswordGiven(req.password) {
        FaceStepAfter(s, deps, u, req.image, [LookupEmail]);
      } else if VerifyRaises(deps.verify(u.passwordHash, req.password.value)).None? {
        FaceStepAfter(s, deps, u, req.image, [LookupEmail, VerifyPassword]);
      }
  }

  /**
   * The body of `login`'s `try` as evidently intended: a credential is "given" when it is
   * present, as the login DTO decides; a password argon2 does not accept, for whatever
   * reason, is reported exactly like an unknown email; a request with no credential is
   * refused.
   */
  function LoginAttempt(s: Store, deps: Deps, req: LoginDto): Run<AuthenticatedDto>
  {
    match FindByEmail(s.users, req.email)
    case None => Run(Failure(Raise(BadRequestError, InvalidCredentialsMessage)), s, [LookupEmail])
    case Some(u) =>
      if req.password.None? && req.image.None? then
        Run(Failure(Raise(BadRequestError, NeitherMessage)), s, [LookupEmail])
      else if req.password.None? then FaceStep(s, deps, u, req.image, [LookupEmail])
      else if !deps.verify(u.passwordHash, req.password.value).Match? then
        Run(Failure(Raise(BadRequestError, InvalidCredentialsMessage)), s, [LookupEmail, VerifyPassword])
      else FaceStep(s, deps, u, req.image, [LookupEmail, VerifyPassword])
  }

  /** The intended password check lets `u` through: no password, or argon2 accepts it. */
  predicate PasswordPasses(deps: Deps, u: UserRow, password: Option<string>)
  {
    password.Some? ==> deps.verify(u.passwordHash, password.value).Match?
  }

  /** Every credential presented passes, and at least one is presented. */
  predicate CredentialsAccepted(s: Store, deps: Deps, u: UserRow, req: LoginDto)
  {
    && (req.password.Some? || req.image.Some?)
    && PasswordPasses(deps, u, req.password)
    && FaceAccepted(s, deps, u, req.image)
  }

  /**
   * `login` as intended: tokens are issued for the user with the email exactly when every
   * presented credential passes and at least one is presented; a refused credential is a
   * 400 (with the same two face messages as the written login), and the password is checked
   * before the face is.
   */
  function Login(s: Store, deps: Deps, req: LoginDto): (r: Run<AuthenticatedDto>)
    ensures r.store == s
    ensures r.result.Success? <==>
      FindByEmail(s.users, req.email).Some?
      && CredentialsAccepted(s, deps, FindByEmail(s.users, req.email).value, req)
      && deps.issueFault.None?
    ensures r.result.Success? ==> r.result.value == IssuePair(deps, FindByEmail(s.users, req.email).value.id)
    ensures FindByEmail(s.users, req.email).Some? && req.image.Some?
      && PasswordPasses(deps, FindByEmail(s.users, req.email).value, req.password)
      && ProfileOf(s.profiles, FindByEmail(s.users, req.email).value.id).None?
      ==> r.result == Failure(Raise(BadRequestError, NoProfileMessage))
    ensures FindByEmail(s.users, req.email).Some?
      && PasswordPasses(deps, FindByEmail(s.users, req.email).value, req.password)
      && FaceMismatch(s, deps, FindByEmail(s.users, req.email).value, req.image)
      ==> r.result == Failure(Raise(BadRequestError, FaceMismatchMessage))
    ensures r.result.Failure? ==> Declared(r.result.error)
    ensures r.result.Failure? && IsA(r.result.error, InternalServerError) ==>
      || (req.image.Some? && FindByEmail(s.users, req.email).Some?
          && !deps.extract(req.image.value).OneFace?)
      || deps.issueFault.Some?
    ensures PasswordBeforeFace(r.trace) && IssuesLast(r.trace)
    ensures req.password.Some? && FindByEmail(s.users, req.email).Some?
      && !deps.verify(FindByEmail(s.users, req.email).value.passwordHash, req.password.value).Match?
      ==> ExtractEmbedding !in r.trace
  {
    LoginAttemptFacts(s, deps, req);
    Handle(LoginAttempt(s, deps, req), CredentialHandler)
  }

  /**
   * What the intended `try` body does before the `except` chain sees it; the only
   * exceptions it lets through that are not re-raised come from face extraction.
   */
  lemma LoginAttemptFacts(s: Store, deps: Deps, req: LoginDto)
    ensures var a := LoginAttempt(s, deps, req);
      && a.store == s
      && (a.result.Success? <==>
            FindByEmail(s.users, req.email).Some?
            && CredentialsAccepted(s, deps, FindByEmail(s.users, req.email).value, req)
            && deps.issueFault.None?)
      && (a.result.Success? ==> a.result.value == IssuePair(deps, FindByEmail(s.users, req.email).value.id))
      && (a.result.Failure? && !Reraised(a.result.error) ==>
            || (req.image.Some? && FindByEmail(s.users, req.email).Some?
                && !deps.extract(req.image.value).OneFace?)
            || deps.issueFault.Some?)
      && PasswordBeforeFace(a.trace) && IssuesLast(a.trace)
      && (req.password.Some? && FindByEmail(s.users, req.email).Some?
          && !deps.verify(FindByEmail(s.users, req.email).value.passwordHash, req.password.value).Match?
          ==> ExtractEmbedding !in a.trace)
  {
    match FindByEmail(s.users, req.email)
    case None =>
    case Some(u) =>
      if req.password.None? && req.image.None? {
      } else if req.password.None? {
        FaceStepAfter(s, deps, u, req.image, [LookupEmail]);
      } else if !deps.verify(u.passwordHash, req.password.value).Match? {
      } else {
        FaceStepAfter(s, deps, u, req.image, [LookupEmail, VerifyPassword]);
      }
  }

  /** The face check run after the lookup (and perhaps the password check) keeps the order. */
  lemma FaceStepAfter(s: Store, deps: Deps, u: UserRow, image: Option<Upload>, done: seq<Call>)
    requires done == [LookupEmail] || done == [LookupEmail, VerifyPassword]
    ensures var r := FaceStep(s, deps, u, image, done);
      PasswordBeforeFace(r.trace) && IssuesLast(r.trace)
      && (ExtractEmbedding in r.trace ==> image.Some?)
      && (r.result.Failure? && !Reraised(r.result.error) ==>
            (image.Some? && !deps.extract(image.value).OneFace?) || deps.issueFault.Some?)
  {
    var r := FaceStep(s, deps, u, image, done);
    assert r.trace[..|done|] == done;
  }

  // ---------------------------------------------------------------------------------------
  // refresh

  /** The request's `Authorization` header and the `refresh_token` field of its JSON body. */
  datatype RefreshRequest = RefreshRequest(authorization: Option<string>, bodyToken: Option<string>)

  const BearerPrefix := "Bearer "

  /** `auth_header and auth_header.startswith("Bearer ")`. */
  predicate BearerHeader(h: Option<string>)
  {
    h.Some? && h.value != "" && StartsWith(h.value, BearerPrefix)
  }

  /**
   * The token `refresh` takes: from a Bearer header, the text after "Bearer " up to the
   * next space (`split(" ")[1]`); otherwise a non-empty body token; otherwise nothing
   * (the empty string).
   */
  function PresentedRefreshToken(req: RefreshRequest): (t: string)
    ensures BearerHeader(req.authorization) ==>
      var rest := req.authorization.value[|BearerPrefix|..];
      && StartsWith(rest, t)
      && (forall k :: 0 <= k < |t| ==> t[k] != ' ')
      && (|t| == |rest| || rest[|t|] == ' ')
    ensures !BearerHeader(req.authorization) ==>
      t == (if req.bodyToken.Some? then req.bodyToken.value else "")
  {
    if BearerHeader(req.authorization) then
      var h := req.authorization.value;
      SplitAfterPrefix(h, "Bearer", ' ');
      FirstPiece(h[|BearerPrefix|..], ' ');
      Split(h, ' ')[1]
    else if req.bodyToken.Some? && req.bodyToken.value != "" then req.bodyToken.value
    else ""
  }

  /** The first piece of a split is the text before the first separator. */
  lemma FirstPiece(s: string, c: char)
    ensures StartsWith(s, Split(s, c)[0])
    ensures forall k :: 0 <= k < |Split(s, c)[0]| ==> Split(s, c)[0][k] != c
    ensures |Split(s, c)[0]| == |s| || s[|Split(s, c)[0]|] == c
  {
  }

  /**
   * The shared body of both refresh variants; `rejected` says what a failed token
   * verification raises.
   */
  function RefreshAttempt(s: Store, deps: Deps, req: RefreshRequest, rejected: Exc -> Exc)
    : Run<NewAccessTokenDto>
  {
    var token := PresentedRefreshToken(req);
    if token == "" then Run(Failure(Raise(BadRequestError, RefreshRequiredMessage)), s, [])
    else
      match deps.verifyToken(token, RefreshToken)
      case Failure(e) => Run(Failure(rejected(e)), s, [CheckToken])
      case Success(claims) =>
        if deps.issueFault.Some? then Run(Failure(deps.issueFault.value), s, [CheckToken, IssueAccess])
        else
          Run(Success(NewAccessTokenDto(deps.encode(Token(claims.sub, AccessToken, deps.accessExpires)))),
              s, [CheckToken, IssueAccess])
  }

  function Unchanged(e: Exc): Exc
  {
    e
  }

  /** What the refresh route declares for a token AuthX refuses: 401. */
  function AsUnauthorized(e: Exc): (r: Exc)
    ensures Reraised(r)
    ensures !Reraised(e) ==> IsA(r, UnauthorizedError)
  {
    if Reraised(e) then e else Raise(UnauthorizedError, Str(e))
  }

  /**
   * `refresh` as written: with no presented token, a 400 "Refresh token is required";
   * otherwise a new access token for the refresh token's subject, if AuthX accepts it as a
   * refresh token; AuthX's refusal goes through the chain unchanged.
   */
  function RefreshAsWritten(s: Store, deps: Deps, req: RefreshRequest): (r: Run<NewAccessTokenDto>)
    ensures r.store == s
    ensures PresentedRefreshToken(req) == "" ==>
      r.result == Failure(Raise(BadRequestError, RefreshRequiredMessage))
    ensures r.result.Success? <==>
      PresentedRefreshToken(req) != "" && deps.verifyToken(PresentedRefreshToken(req), RefreshToken).Success?
      && deps.issueFault.None?
    ensures PresentedRefreshToken(req) != "" && deps.verifyToken(PresentedRefreshToken(req), RefreshToken).Failure?
      ==> r.result == Failure(TokenHandler(deps.verifyToken(PresentedRefreshToken(req), RefreshToken).error))
    ensures r.result.Success? ==> (r.result.value.accessToken ==
      deps.encode(Token(deps.verifyToken(PresentedRefreshToken(req), RefreshToken).value.sub, AccessToken, deps.accessExpires)))
    ensures r.result.Failure? ==> Declared(r.result.error)
  {
    Handle(RefreshAttempt(s, deps, req, Unchanged), TokenHandler)
  }

  /**
   * `refresh` as intended: the same, except that a token AuthX refuses is a 401, never a
   * 500. Every failure is then a 400 (no token), a 401 (a refused token), or AuthX failing
   * to sign the new token.
   */
  function Refresh(s: Store, deps: Deps, req: RefreshRequest): (r: Run<NewAccessTokenDto>)
    ensures r.store == s
    ensures PresentedRefreshToken(req) == "" ==>
      r.result == Failure(Raise(BadRequestError, RefreshRequiredMessage))
    ensures r.result.Success? <==>
      PresentedRefreshToken(req) != "" && deps.verifyToken(PresentedRefreshToken(req), RefreshToken).Success?
      && deps.issueFault.None?
    ensures PresentedRefreshToken(req) != "" && deps.verifyToken(PresentedRefreshToken(req), RefreshToken).Failure?
      ==> r.result == Failure(AsUnauthorized(deps.verifyToken(PresentedRefreshToken(req), RefreshToken).error))
    ensures r.result.Success? ==> (r.result.value.accessToken ==
      deps.encode(Token(deps.verifyToken(PresentedRefreshToken(req), RefreshToken).value.sub, AccessToken, deps.accessExpires)))
    ensures r.result.Failure? ==>
      Reraised(r.result.error) || (deps.issueFault.Some? && r.result.error == TokenHandler(deps.issueFault.value))
  {
    Handle(RefreshAttempt(s, deps, req, AsUnauthorized), TokenHandler)
  }

  // ---------------------------------------------------------------------------------------
  // get_current_user

  const NoHeaderMessage := "'NoneType' object has no attribute 'split'"
  const NoSecondWordMessage := "list index out of range"

  /** `session.get(User, sub)`: the subject names a user only when it is a decimal id. */
  function LookupSubject(users: seq<UserRow>, sub: string): (r: Option<UserRow>)
    ensures r.Some? ==> r.value in users && ParseNat(sub) == Some(r.value.id)
    ensures r.None? <==> ParseNat(sub).None? || FindById(users, ParseNat(sub).value).None?
    ensures ParseNat(sub).Some? ==> r == FindById(users, ParseNat(sub).value)
  {
    match ParseNat(sub)
    case None => None
    case Some(id) => FindById(users, id)
  }

  function GetCurrentUserAttempt(s: Store, deps: Deps, authorization: Option<string>): Run<UserDto>
  {
    match authorization
    case None => Run(Failure(PyExc("AttributeError", false, NoHeaderMessage)), s, [])
    case Some(h) =>
      var parts := Split(h, ' ');
      if |parts| < 2 then Run(Failure(PyExc("IndexError", false, NoSecondWordMessage)), s, [])
      else
        match deps.verifyToken(parts[1], AccessToken)
        case Failure(e) => Run(Failure(e), s, [CheckToken])
        case Success(claims) =>
          match LookupSubject(s.users, claims.sub)
          case None => Run(Failure(Raise(NotFoundError, UserNotFoundMessage)), s, [CheckToken, LoadUser])
          case Some(u) => Run(Success(PublicView(u)), s, [CheckToken, LoadUser])
  }

  /** The second space-separated word of the header, which the service takes as the token. */
  function SecondWord(h: string): Option<string>
  {
    var parts := Split(h, ' ');
    if |parts| < 2 then None else Some(parts[1])
  }

  /**
   * `get_current_user`: the second word of the `Authorization` header is verified as an
   * access token, and the user its subject names is returned. The header is not checked for
   * the "Bearer" scheme; a missing header, or one without a space, is a 500. A token AuthX
   * refuses goes through the chain; a verified subject that names no stored user is a 404
   * "User not found".
   */
  function GetCurrentUser(s: Store, deps: Deps, authorization: Option<string>): (r: Run<UserDto>)
    ensures r.store == s
    ensures authorization.None? ==>
      r.result == Failure(Raise(InternalServerError, NoHeaderMessage))
    ensures authorization.Some? && SecondWord(authorization.value).None? ==>
      r.result == Failure(Raise(InternalServerError, NoSecondWordMessage))
    ensures (authorization.Some? && SecondWord(authorization.value).Some?
             && deps.verifyToken(SecondWord(authorization.value).value, AccessToken).Failure?) ==>
      r.result == Failure(TokenHandler(deps.verifyToken(SecondWord(authorization.value).value, AccessToken).error))
    ensures (authorization.Some? && SecondWord(authorization.value).Some?
             && deps.verifyToken(SecondWord(authorization.value).value, AccessToken).Success?
             && LookupSubject(s.users,
                  deps.verifyToken(SecondWord(authorization.value).value, AccessToken).value.sub).None?) ==>
      r.result == Failure(Raise(NotFoundError, UserNotFoundMessage))
    ensures r.result.Success? <==>
      && authorization.Some? && SecondWord(authorization.value).Some?
      && deps.verifyToken(SecondWord(authorization.value).value, AccessToken).Success?
      && LookupSubject(s.users,
           deps.verifyToken(SecondWord(authorization.value).value, AccessToken).value.sub).Some?
    ensures r.result.Success? ==>
      var u := LookupSubject(s.users,
        deps.verifyToken(SecondWord(authorization.value).value, AccessToken).value.sub).value;
      r.result.value == PublicView(u) && u in s.users
    ensures r.result.Failure? ==> Declared(r.result.error)
  {
    Handle(GetCurrentUserAttempt(s, deps, authorization), TokenHandler)
  }

  // ---------------------------------------------------------------------------------------
  // properties across operations

  /** An unknown email and a wrong password are indistinguishable under the intended login. */
  lemma LoginHidesWhichCredentialFailed(
    s: Store, deps: Deps, unknown: string, known: string, password: string)
    requires FindByEmail(s.users, unknown).None?
    requires FindByEmail(s.users, known).Some?
    requires !deps.verify(FindByEmail(s.users, known).value.passwordHash, password).Match?
    ensures Login(s, deps, LoginDto(unknown, Some(password), None)).result
         == Login(s, deps, LoginDto(known, Some(password), None)).result
         == Failure(Raise(BadRequestError, InvalidCredentialsMessage))
  {
  }

  /**
   * As written, a wrong password is not a 400: argon2's `VerifyMismatchError` is not a
   * `ValueError`, so it escapes as a 500 carrying argon2's message, unlike an unknown email.
   */
  lemma WrongPasswordIsServerError(s: Store, deps: Deps, email: string, password: string, message: string)
    requires FindByEmail(s.users, email).Some?
    requires password != ""
    requires deps.verify(FindByEmail(s.users, email).value.passwordHash, password) == Mismatch(message)
    ensures LoginAsWritten(s, deps, LoginDto(email, Some(password), None)).result
      == Failure(Raise(InternalServerError, message))
  {
  }

  /**
   * As written, an empty password counts as "provided" for the login DTO but as "not
   * given" for the service: a form with the email of any user and an empty password passes
   * validation, and the service issues that user's tokens without checking any credential.
   */
  lemma EmptyPasswordIssuesTokens(s: Store, deps: Deps, checkEmail: EmailCheck, email: string)
    requires checkEmail(email) == Some(email)
    requires FindByEmail(s.users, email).Some?
    requires deps.issueFault.None?
    ensures ParseLogin(checkEmail, LoginForm(Some(email), Some(""), None))
      == Success(LoginDto(email, Some(""), None))
    ensures LoginAsWritten(s, deps, LoginDto(email, Some(""), None)).result
      == Success(IssuePair(deps, FindByEmail(s.users, email).value.id))
  {
  }

  /** Under the intended login, an empty password is verified like any other. */
  lemma EmptyPasswordIsChecked(s: Store, deps: Deps, email: string)
    requires FindByEmail(s.users, email).Some?
    ensures Login(s, deps, LoginDto(email, Some(""), None)).result.Success? <==>
      deps.verify(FindByEmail(s.users, email).value.passwordHash, "").Match? && deps.issueFault.None?
  {
  }

  /** Whenever the written login succeeds, so does the intended one, with the same tokens. */
  lemma IntendedLoginNeverRefusesWhatTheWrittenOneAcceptsWithACheck(s: Store, deps: Deps, req: LoginDto)
    requires PasswordGiven(req.password) || (req.password.None? && req.image.Some?)
    requires LoginAsWritten(s, deps, req).result.Success?
    ensures Login(s, deps, req).result == LoginAsWritten(s, deps, req).result
  {
  }

  /**
   * A Bearer header wins over the body: whatever the body holds, refresh takes the token
   * from the header.
   */
  lemma BearerHeaderTakesPrecedence(token: string, body: Option<string>)
    requires forall k :: 0 <= k < |token| ==> token[k] != ' '
    ensures PresentedRefreshToken(RefreshRequest(Some(BearerPrefix + token), body)) == token
  {
    var h := BearerPrefix + token;
    assert h[|BearerPrefix|..] == token;
    assert StartsWith(h, BearerPrefix);
  }

  /**
   * A header in another scheme (or an empty one) is ignored in favour of the body; with no
   * body token either, refresh is a 400 "Refresh token is required".
   */
  lemma NonBearerHeaderFallsBackToBody(s: Store, deps: Deps, header: Option<string>)
    requires !BearerHeader(header)
    ensures RefreshAsWritten(s, deps, RefreshRequest(header, None)).result
      == Failure(Raise(BadRequestError, RefreshRequiredMessage))
    ensures RefreshAsWritten(s, deps, RefreshRequest(header, Some(""))).result
      == Failure(Raise(BadRequestError, RefreshRequiredMessage))
  {
  }

  /**
   * As written, a refresh token AuthX refuses (expired, badly signed, an access token) is a
   * 500: AuthX's exceptions are not HTTP exceptions and the chain turns them into
   * `InternalServerError`s, although the route declares 401 for this case.
   */
  lemma RefusedRefreshTokenIsServerError(s: Store, deps: Deps, req: RefreshRequest, e: Exc)
    requires PresentedRefreshToken(req) != ""
    requires deps.verifyToken(PresentedRefreshToken(req), RefreshToken) == Failure(e)
    requires e.PyExc?
    ensures RefreshAsWritten(s, deps, req).result == Failure(Raise(InternalServerError, e.message))
  {
  }

  /** Under the intended refresh, the same token is a 401 carrying the same message. */
  lemma RefusedRefreshTokenIsUnauthorized(s: Store, deps: Deps, req: RefreshRequest, e: Exc)
    requires PresentedRefreshToken(req) != ""
    requires deps.verifyToken(PresentedRefreshToken(req), RefreshToken) == Failure(e)
    requires e.PyExc?
    ensures Refresh(s, deps, req).result == Failure(Raise(UnauthorizedError, e.message))
  {
  }

  /** A JWT's compact form has no spaces. */
  predicate SpaceFree(t: string)
  {
    forall k :: 0 <= k < |t| ==> t[k] != ' '
  }

  /**
   * Register, then log in with the same password: when argon2 accepts the password against
   * its own hash, both login variants issue a pair with the same claims as the registration
   * did (the new id as subject, each kind with its lifetime).
   */
  lemma RegisterThenLogin(s: Store, deps: Deps, req: RegisterDto)
    requires Valid(s)
    requires Register(s, deps, req).result.Success?
    requires req.password != ""
    requires deps.verify(deps.hash(req.password), req.password) == Match
    ensures var s' := Register(s, deps, req).store;
      && LoginAsWritten(s', deps, LoginDto(req.email, Some(req.password), None)).result
         == Register(s, deps, req).result
      && Login(s', deps, LoginDto(req.email, Some(req.password), None)).result
         == Register(s, deps, req).result
  {
    InsertLookups(s, req.email, deps.hash(req.password), deps.extract(req.image).embedding);
  }

  /**
   * Register, then present the access token to "who am I": when AuthX accepts the token it
   * issued, the new user's public view comes back.
   */
  lemma RegisterThenMe(s: Store, deps: Deps, req: RegisterDto)
    requires Valid(s)
    requires Register(s, deps, req).result.Success?
    requires var t := AccessClaims(deps, s.nextId);
      deps.encode(t) != "" && SpaceFree(deps.encode(t)) && deps.verifyToken(deps.encode(t), AccessToken) == Success(t)
    ensures var r := Register(s, deps, req);
      GetCurrentUser(r.store, deps, Some(BearerPrefix + r.result.value.accessToken)).result
        == Success(UserDto(s.nextId, req.email))
  {
    RegisterSucceeded(s, deps, req);
    MeAfterInsert(s, deps, req.email, deps.hash(req.password), deps.extract(req.image).embedding);
  }

  /** What a successful registration did, in the terms the round trips need. */
  lemma RegisterSucceeded(s: Store, deps: Deps, req: RegisterDto)
    requires Register(s, deps, req).result.Success?
    ensures FindByEmail(s.users, req.email).None?
    ensures deps.extract(req.image).OneFace?
    ensures Register(s, deps, req).store
      == Insert(s, req.email, deps.hash(req.password), deps.extract(req.image).embedding)
    ensures Register(s, deps, req).result.value == IssuePair(deps, s.nextId)
  {
  }

  /** The access token issued for a freshly inserted user names that user. */
  lemma MeAfterInsert(s: Store, deps: Deps, email: string, passwordHash: string, embedding: Bytes)
    requires Valid(s)
    requires FindByEmail(s.users, email).None?
    requires var t := AccessClaims(deps, s.nextId);
      deps.encode(t) != "" && SpaceFree(deps.encode(t)) && deps.verifyToken(deps.encode(t), AccessToken) == Success(t)
    ensures GetCurrentUser(Insert(s, email, passwordHash, embedding), deps,
      Some(BearerPrefix + deps.encode(AccessClaims(deps, s.nextId)))).result
        == Success(UserDto(s.nextId, email))
  {
    var t := AccessClaims(deps, s.nextId);
    var s' := Insert(s, email, passwordHash, embedding);
    var u := UserRow(s.nextId, email, passwordHash);
    BearerSecondWord(deps.encode(t));
    SubjectAfterInsert(s, email, passwordHash, embedding);
    GetCurrentUserFinds(s', deps, BearerPrefix + deps.encode(t), deps.encode(t), t, u);
  }

  /** The second word of "Bearer <token>" is the token, when the token has no space. */
  lemma BearerSecondWord(token: string)
    requires token != "" && SpaceFree(token)
    ensures SecondWord(BearerPrefix + token) == Some(token)
  {
    var h := BearerPrefix + token;
    SplitAfterPrefix(h, "Bearer", ' ');
    assert h[|BearerPrefix|..] == token;
    FirstPiece(token, ' ');
  }

  /** The subject written for the next id finds the freshly inserted user. */
  lemma SubjectAfterInsert(s: Store, email: string, passwordHash: string, embedding: Bytes)
    requires Valid(s)
    requires FindByEmail(s.users, email).None?
    ensures LookupSubject(Insert(s, email, passwordHash, embedding).users, NatToString(s.nextId))
      == Some(UserRow(s.nextId, email, passwordHash))
  {
    InsertLookups(s, email, passwordHash, embedding);
    ParseNatToString(s.nextId);
  }

  /** The decimal rendering of a stored user's id finds that user. */
  lemma StoredUserSubjectFound(users: seq<UserRow>, id: nat)
    requires HasUser(users, id)
    ensures LookupSubject(users, NatToString(id)) == FindById(users, id)
    ensures LookupSubject(users, NatToString(id)).Some?
  {
    ParseNatToString(id);
  }

  /** "Who am I" with a header whose second word verifies and names a stored user. */
  lemma GetCurrentUserFinds(s: Store, deps: Deps, h: string, token: string, claims: Token, u: UserRow)
    requires SecondWord(h) == Some(token)
    requires deps.verifyToken(token, AccessToken) == Success(claims)
    requires LookupSubject(s.users, claims.sub) == Some(u)
    ensures GetCurrentUser(s, deps, Some(h)).result == Success(PublicView(u))
  {
  }

  /**
   * Register, then send the refresh token in the body: when AuthX accepts it, the new
   * access token carries the new user's id as subject, with the access lifetime.
   */
  lemma RegisterThenRefresh(s: Store, deps: Deps, req: RegisterDto)
    requires Register(s, deps, req).result.Success?
    requires var t := RefreshClaims(deps, s.nextId);
      deps.encode(t) != "" && deps.verifyToken(deps.encode(t), RefreshToken) == Success(t)
    ensures var r := Register(s, deps, req);
      RefreshAsWritten(r.store, deps, RefreshRequest(None, Some(r.result.value.refreshToken))).result
        == Success(NewAccessTokenDto(deps.encode(AccessClaims(deps, s.nextId))))
  {
  }
}

=== FILE: auth_service_legacy.dfy ===
/**
 * The older revision's `AuthService`: registration and login only, both answering the
 * user's public view rather than tokens.
 *
 * It has no blanket `except` chain. Every error it raises itself is a bare `HTTPException`
 * with status 400; only a `FacialEmbeddingError` from the extractor is caught (and turned
 * into such a 400); every other exception from a collaborator escapes unchanged.
 *
 * Its login DTO's module is not part of this model; login takes the same three fields as
 * the current revision's.
 */
module AuthServiceLegacy {
  import opened Wrappers
  import opened HttpExceptions
  import opened ImageValidation
  import opened Dtos
  import opened Directory
  import opened Collaborators

  const UserExistsMessage := "User already exists"
  const InvalidCredentialsMessage := "Invalid email or password"
  const NoProfileMessage := "No biometric profile found for this user"
  const FaceMismatchMessage := "Facial authentication failed"

  /** `HTTPException(status_code=400, detail=...)`. */
  function BadRequest(detail: string): (e: Exc)
    ensures e.HttpExc? && Status(e) == 400 && e.detail == detail
  {
    HttpExc(PlainHttpException(400), detail)
  }

  predicate IsBadRequest(e: Exc)
  {
    e.HttpExc? && e.http == PlainHttpException(400)
  }

  /** `except FacialEmbeddingError as e: raise HTTPException(400, str(e))`. */
  function CatchEmbeddingError(e: Exc): (r: Exc)
    ensures IsFacialEmbeddingError(e) ==> r == BadRequest(e.message)
    ensures !IsFacialEmbeddingError(e) ==> r == e
  {
    if IsFacialEmbeddingError(e) then BadRequest(Str(e)) else e
  }

  /** The extractor's exception that escapes unhandled, if extraction of `x` has one. */
  predicate ExtractorEscape(x: Extraction, e: Exc)
  {
    x.Crash? && x.error == e && !IsFacialEmbeddingError(e)
  }

  /**
   * `register`: a taken email is a 400; an extraction without exactly one result is a 400
   * with the extractor's generic message; the user and profile rows are committed together
   * or not at all. Any failure that is not one of these 400s is an exception of the extractor or the
   * session, escaping unchanged.
   */
  function Register(s: Store, deps: Deps, req: RegisterDto): (r: Run<UserDto>)
    ensures FindByEmail(s.users, req.email).Some? ==>
      r.result == Failure(BadRequest(UserExistsMessage)) && r.store == s
    ensures r.result.Success? <==>
      && FindByEmail(s.users, req.email).None?
      && deps.extract(req.image).OneFace?
      && deps.flushFault.None? && deps.commitFault.None?
    ensures r.result.Success? ==>
      && r.store == Insert(s, req.email, deps.hash(req.password), deps.extract(req.image).embedding)
      && r.result.value == UserDto(s.nextId, req.email)
    ensures r.result.Failure? ==> r.store == s
    ensures (FindByEmail(s.users, req.email).None?
      && (deps.extract(req.image).EmptyResult? || deps.extract(req.image).SeveralResults?)) ==>
      r.result == Failure(BadRequest(EmbeddingFailedMessage))
    ensures r.result.Failure? ==>
      || IsBadRequest(r.result.error)
      || ExtractorEscape(deps.extract(req.image), r.result.error)
      || deps.flushFault == Some(r.result.error)
      || deps.commitFault == Some(r.result.error)
    ensures ExtractsBeforeWriting(r.trace) && CommitsAtMostOnce(r.trace)
    ensures Valid(s) ==> Valid(r.store)
  {
    if FindByEmail(s.users, req.email).Some? then
      RegisterStepsOrdered(1);
      Run(Failure(BadRequest(UserExistsMessage)), s, RegisterSteps[..1])
    else
      match GenerateFacialEmbedding(deps.extract(req.image))
      case Failure(e) =>
        RegisterStepsOrdered(2);
        Run(Failure(CatchEmbeddingError(e)), s, RegisterSteps[..2])
      case Success(embedding) =>
        if deps.flushFault.Some? then
          RegisterStepsOrdered(5);
          Run(Failure(deps.flushFault.value), s, RegisterSteps[..5])
        else if deps.commitFault.Some? then
          RegisterStepsOrdered(7);
          Run(Failure(deps.commitFault.value), s, RegisterSteps[..7])
        else
          RegisterStepsOrdered(7);
          var s' := Insert(s, req.email, deps.hash(req.password), embedding);
          assert Valid(s) ==> Valid(s') by {
            if Valid(s) {
              InsertPreservesValid(s, req.email, deps.hash(req.password), embedding);
            }
          }
          Run(Success(UserDto(s.nextId, req.email)), s', RegisterSteps[..7])
  }

  /** Every call the older `register` can make, in the order it makes them. */
  const RegisterSteps := [LookupEmail, ExtractEmbedding, HashPassword, AddUser, Flush, AddProfile, Commit]

  /** Every prefix of those steps extracts before writing and commits at most once. */
  lemma RegisterStepsOrdered(n: nat)
    requires n <= |RegisterSteps|
    ensures ExtractsBeforeWriting(RegisterSteps[..n]) && CommitsAtMostOnce(RegisterSteps[..n])
  {
    var t := RegisterSteps[..n];
    forall j | 0 <= j < |t| && IsWrite(t[j]) ensures ExtractEmbedding in t[..j] {
      assert t[..j][1] == ExtractEmbedding;
    }
  }

  /**
   * The face check of `login`, after the password check: with no image there is nothing to
   * do; otherwise the user needs a profile (a 400 "No biometric profile found for this
   * user") and the image's single face must match it (a 400 "Facial authentication failed").
   */
  function FaceStep(s: Store, deps: Deps, u: UserRow, image: Option<Upload>, done: seq<Call>)
    : (r: Run<UserDto>)
    ensures r.store == s
    ensures r.result.Success? <==> FaceAccepted(s, deps, u, image)
    ensures r.result.Success? ==> r.result.value == PublicView(u)
    ensures image.Some? && ProfileOf(s.profiles, u.id).None? ==>
      r.result == Failure(BadRequest(NoProfileMessage))
    ensures FaceMismatch(s, deps, u, image) ==> r.result == Failure(BadRequest(FaceMismatchMessage))
    ensures r.result.Failure? ==>
      IsBadRequest(r.result.error)
      || (image.Some? && ExtractorEscape(deps.extract(image.value), r.result.error))
    ensures |r.trace| >= |done| && r.trace[..|done|] == done
    ensures forall k :: |done| <= k < |r.trace| ==> r.trace[k] != VerifyPassword
  {
    match image
    case None => Run(Success(PublicView(u)), s, done)
    case Some(img) =>
      match ProfileOf(s.profiles, u.id)
      case None => Run(Failure(BadRequest(NoProfileMessage)), s, done + [LoadProfile])
      case Some(p) =>
        match GenerateFacialEmbedding(deps.extract(img))
        case Failure(e) => Run(Failure(CatchEmbeddingError(e)), s, done + [LoadProfile, ExtractEmbedding])
        case Success(embedding) =>
          var compared := done + [LoadProfile, ExtractEmbedding, MatchFaces];
          if !deps.matches(embedding, p.embedding) then
            Run(Failure(BadRequest(FaceMismatchMessage)), s, compared)
          else Run(Success(PublicView(u)), s, compared)
  }

  /**
   * `login`: an unknown email is a 400; a non-empty password is verified by argon2, whose
   * exceptions escape unchanged; then an image is checked against the stored profile, with
   * a 400 for a user without one and a 400 for a face that does not match. The user's public
   * view is returned when every check passes.
   */
  function Login(s: Store, deps: Deps, req: LoginDto): (r: Run<UserDto>)
    ensures r.store == s
    ensures FindByEmail(s.users, req.email).None? ==>
      r.result == Failure(BadRequest(InvalidCredentialsMessage))
    ensures r.result.Success? <==>
      && FindByEmail(s.users, req.email).Some?
      && TruthyPasswordAccepted(deps, FindByEmail(s.users, req.email).value, req.password)
      && FaceAccepted(s, deps, FindByEmail(s.users, req.email).value, req.image)
    ensures r.result.Success? ==> r.result.value == PublicView(FindByEmail(s.users, req.email).value)
    ensures FindByEmail(s.users, req.email).Some? && req.image.Some?
      && TruthyPasswordAccepted(deps, FindByEmail(s.users, req.email).value, req.password)
      && ProfileOf(s.profiles, FindByEmail(s.users, req.email).value.id).None?
      ==> r.result == Failure(BadRequest(NoProfileMessage))
    ensures FindByEmail(s.users, req.email).Some?
      && TruthyPasswordAccepted(deps, FindByEmail(s.users, req.email).value, req.password)
      && FaceMismatch(s, deps, FindByEmail(s.users, req.email).value, req.image)
      ==> r.result == Failure(BadRequest(FaceMismatchMessage))
    ensures r.result.Failure? ==>
      || IsBadRequest(r.result.error)
      || (PasswordGiven(req.password) && FindByEmail(s.users, req.email).Some?
          && VerifyRaises(deps.verify(FindByEmail(s.users, req.email).value.passwordHash,
                                      req.password.value)) == Some(r.result.error))
      || (req.image.Some? && ExtractorEscape(deps.extract(req.image.value), r.result.error))
    ensures PasswordBeforeFace(r.trace)
    ensures PasswordGiven(req.password) && FindByEmail(s.users, req.email).Some?
      && !deps.verify(FindByEmail(s.users, req.email).value.passwordHash, req.password.value).Match?
      ==> ExtractEmbedding !in r.trace
  {
    match FindByEmail(s.users, req.email)
    case None => Run(Failure(BadRequest(InvalidCredentialsMessage)), s, [LookupEmail])
    case Some(u) =>
      if !PasswordGiven(req.password) then FaceStep(s, deps, u, req.image, [LookupEmail])
      else
        match VerifyRaises(deps.verify(u.passwordHash, req.password.value))
        case Some(e) => Run(Failure(e), s, [LookupEmail, VerifyPassword])
        case None => FaceStep(s, deps, u, req.image, [LookupEmail, VerifyPassword])
  }

  /**
   * A wrong password is not answered with the intended 400: argon2's `VerifyMismatchError`
   * escapes the service, and it is not an `HTTPException`.
   */
  lemma WrongPasswordEscapes(s: Store, deps: Deps, email: string, password: string, message: string)
    requires FindByEmail(s.users, email).Some?
    requires password != ""
    requires deps.verify(FindByEmail(s.users, email).value.passwordHash, password) == Mismatch(message)
    ensures Login(s, deps, LoginDto(email, Some(password), None)).result
      == Failure(PyExc("VerifyMismatchError", false, message))
  {
  }

  /**
   * `login` as its checks evidently intend: a password argon2 refuses, for whatever reason,
   * is the same 400 as an unknown email.
   */
  function IntendedLogin(s: Store, deps: Deps, req: LoginDto): (r: Run<UserDto>)
    ensures r.store == s
    ensures r.result.Success? <==> Login(s, deps, req).result.Success?
    ensures r.result.Success? ==> r.result == Login(s, deps, req).result
    ensures FindByEmail(s.users, req.email).Some? && req.image.Some?
      && TruthyPasswordAccepted(deps, FindByEmail(s.users, req.email).value, req.password)
      && ProfileOf(s.profiles, FindByEmail(s.users, req.email).value.id).None?
      ==> r.result == Failure(BadRequest(NoProfileMessage))
    ensures FindByEmail(s.users, req.email).Some?
      && TruthyPasswordAccepted(deps, FindByEmail(s.users, req.email).value, req.password)
      && FaceMismatch(s, deps, FindByEmail(s.users, req.email).value, req.image)
      ==> r.result == Failure(BadRequest(FaceMismatchMessage))
    ensures r.result.Failure? ==>
      IsBadRequest(r.result.error)
      || (req.image.Some? && ExtractorEscape(deps.extract(req.image.value), r.result.error))
    ensures PasswordBeforeFace(r.trace)
  {
    match FindByEmail(s.users, req.email)
    case None => Run(Failure(BadRequest(InvalidCredentialsMessage)), s, [LookupEmail])
    case Some(u) =>
      if !PasswordGiven(req.password) then FaceStep(s, deps, u, req.image, [LookupEmail])
      else if !deps.verify(u.passwordHash, req.password.value).Match? then
        Run(Failure(BadRequest(InvalidCredentialsMessage)), s, [LookupEmail, VerifyPassword])
      else FaceStep(s, deps, u, req.image, [LookupEmail, VerifyPassword])
  }

  /**
   * With the intended password check, a wrong password and an unknown email get the very
   * same answer, so the response does not tell which one was wrong.
   */
  lemma IntendedLoginHidesWhichCredentialFailed(
    s: Store, deps: Deps, unknown: string, known: string, password: string)
    requires FindByEmail(s.users, unknown).None?
    requires FindByEmail(s.users, known).Some?
    requires password != ""
    requires !deps.verify(FindByEmail(s.users, known).value.passwordHash, password).Match?
    ensures IntendedLogin(s, deps, LoginDto(unknown, Some(password), None)).result
         == IntendedLogin(s, deps, LoginDto(known, Some(password), None)).result
         == Failure(BadRequest(InvalidCredentialsMessage))
  {
  }

  /**
   * Neither credential is required: a known email with no password (or an empty one) and
   * no image is enough to get the user's public view back.
   */
  lemma NoCredentialIsEnough(s: Store, deps: Deps, email: string, password: Option<string>)
    requires FindByEmail(s.users, email).Some?
    requires password.None? || password == Some("")
    ensures Login(s, deps, LoginDto(email, password, None)).result
      == Success(PublicView(FindByEmail(s.users, email).value))
  {
  }

  /**
   * The older service fails an extraction that returns no embedding with a 400 where the
   * current one fails it with a 500; both leave the store as it was.
   */
  lemma EmptyExtractionIsBadRequest(s: Store, deps: Deps, req: RegisterDto)
    requires FindByEmail(s.users, req.email).None?
    requires deps.extract(req.image).EmptyResult?
    ensures Register(s, deps, req).result == Failure(BadRequest(EmbeddingFailedMessage))
    ensures Register(s, deps, req).store == s
  {
  }

  /**
   * An image in which DeepFace detects no face makes it raise its own `ValueError`; the older
   * service catches only `FacialEmbeddingError`, so that exception escapes unchanged.
   */
  lemma UndetectedFaceEscapes(s: Store, deps: Deps, req: RegisterDto, message: string)
    requires FindByEmail(s.users, req.email).None?
    requires deps.extract(req.image) == Crash(PyExc("ValueError", true, message))
    ensures Register(s, deps, req).result == Failure(PyExc("ValueError", true, message))
    ensures Register(s, deps, req).store == s
  {
  }

  /** Register, then log in with the same password: the same public view comes back. */
  lemma RegisterThenLogin(s: Store, deps: Deps, req: RegisterDto)
    requires Valid(s)
    requires Register(s, deps, req).result.Success?
    requires req.password != ""
    requires deps.verify(deps.hash(req.password), req.password) == Match
    ensures Login(Register(s, deps, req).store, deps, LoginDto(req.email, Some(req.password), None)).result
      == Register(s, deps, req).result
  {
    InsertLookups(s, req.email, deps.hash(req.password), deps.extract(req.image).embedding);
  }
}

=== FILE: client_user_store.dfy ===
/**
 * The browser's user store: the signed-in user (email and access token) or nobody, changed
 * only by `setUser` and `logout`. Its persistence to local storage is not modelled.
 */
module ClientUserStore {
  import opened Wrappers
  import opened ApiClient

  datatype User = User(email: string, token: string)
  datatype State = State(user: Option<User>)
  datatype Action = SetUser(newUser: Option<User>) | Logout

  const Initial := State(None)

  /** One action: `setUser(u)` makes the user exactly `u`; `logout` clears it. */
  function Reduce(s: State, a: Action): (s': State)
    ensures a.SetUser? ==> s'.user == a.newUser
    ensures a.Logout? ==> s'.user.None?
  {
    match a
    case SetUser(u) => State(u)
    case Logout => State(None)
  }

  /** A sequence of actions, first to last. */
  function RunActions(s: State, actions: seq<Action>): State
    decreases |actions|
  {
    if |actions| == 0 then s else RunActions(Reduce(s, actions[0]), actions[1..])
  }

  /** Running `a` then `b` is running their concatenation. */
  lemma {:induction false} RunAppend(s: State, a: seq<Action>, b: seq<Action>)
    ensures RunActions(s, a + b) == RunActions(RunActions(s, a), b)
    decreases |a|
  {
    if |a| > 0 {
      assert (a + b)[1..] == a[1..] + b;
      RunAppend(Reduce(s, a[0]), a[1..], b);
    } else {
      assert a + b == b;
    }
  }

  /**
   * Neither action reads the state, so after any non-empty sequence the state is the one
   * its last action sets, whatever came before.
   */
  lemma LastActionDecides(s: State, actions: seq<Action>)
    requires |actions| > 0
    ensures RunActions(s, actions) == Reduce(Initial, actions[|actions| - 1])
  {
    var n := |actions| - 1;
    assert actions == actions[..n] + [actions[n]];
    RunAppend(s, actions[..n], [actions[n]]);
  }

  /** Logging out twice is logging out once, and `setUser(null)` is logging out. */
  lemma LogoutIdempotent(s: State)
    ensures Reduce(Reduce(s, Logout), Logout) == Reduce(s, Logout)
    ensures Reduce(s, SetUser(None)) == Reduce(s, Logout)
  {
  }

  /** The token the fetcher reads: `useUserStore.getState().user?.token`. */
  function StoredToken(s: State): (t: Option<string>)
    ensures t.Some? <==> s.user.Some?
    ensures t.Some? ==> t.value == s.user.value.token
  {
    if s.user.Some? then Some(s.user.value.token) else None
  }

  /**
   * Requests carry an Authorization header exactly when the last store action set a user
   * whose token is not empty; the header then holds that token.
   */
  lemma AuthorizationFollowsLastAction(actions: seq<Action>)
    requires |actions| > 0
    ensures var last := actions[|actions| - 1];
      var h := FetchHeaders(map[], StoredToken(RunActions(Initial, actions)));
      && (Authorization in h <==> last.SetUser? && last.newUser.Some? && last.newUser.value.token != "")
      && (Authorization in h ==> h[Authorization] == "Bearer " + last.newUser.value.token)
  {
    LastActionDecides(Initial, actions);
  }

  /** A request a hook puts on the wire, with the headers the fetcher gives it. */
  datatype Sent = Sent(request: Request, headers: map<string, string>)

  /**
   * What a hook sends in store state `s`: the request the hook decides on, if any, through
   * the fetcher, whose options never carry headers of their own.
   */
  function HookSend(s: State, verb: Method, data: HookData, url: Url): Option<Sent>
  {
    match HookRequest(verb, data, url)
    case None => None
    case Some(req) => Some(Sent(req, FetchHeaders(map[], StoredToken(s))))
  }

  /**
   * Every request a hook sends is JSON and carries the stored user's token exactly when that
   * token is not empty; its body is the hook's data exactly for a mutation with truthy data.
   * A query hook always sends; a mutation hook sends once it is given data.
   */
  lemma HookSendsJsonWithStoredToken(s: State, verb: Method, data: HookData, url: Url)
    ensures HookSend(s, verb, data, url).Some? <==> !IsMutation(verb) || !data.NoData?
    ensures var o := HookSend(s, verb, data, url);
      o.Some? ==>
        && o.value.request.url == url
        && ContentType in o.value.headers && o.value.headers[ContentType] == "application/json"
        && (Authorization in o.value.headers <==> s.user.Some? && s.user.value.token != "")
        && (Authorization in o.value.headers ==>
              o.value.headers[Authorization] == "Bearer " + s.user.value.token)
        && (o.value.request.body.Some? <==> IsMutation(verb) && data.Data? && data.truthy)
        && (o.value.request.body.Some? ==>
              o.value.request.body == Some(data.json) && o.value.request.verb == Some(verb))
  {
  }

  /** After a logout, whatever came before, a hook's request carries only the content type. */
  lemma LoggedOutRequestsAreAnonymous(actions: seq<Action>, verb: Method, data: HookData, url: Url)
    requires |actions| > 0 && actions[|actions| - 1] == Logout
    requires HookSend(RunActions(Initial, actions), verb, data, url).Some?
    ensures HookSend(RunActions(Initial, actions), verb, data, url).value.headers
      == map[ContentType := "application/json"]
  {
    LastActionDecides(Initial, actions);
  }
}

=== FILE: collaborators.dfy ===
/**
 * What the authentication service asks of code outside it: argon2's password hasher, the
 * face-embedding extractor and comparator, AuthX's token issuer and verifier, and the
 * database session's flush and commit. Each is a parameter of the service (a `Deps` value),
 * so every property below holds whatever these collaborators answer.
 *
 * A service run also records, as a sequence of `Call`s, which collaborators it reached and
 * in what order; the ordering properties are stated over that trace.
 */
module Collaborators {
  import opened Wrappers
  import opened HttpExceptions
  import opened ImageValidation
  import opened Directory

  /**
   * `PasswordHasher.verify(hash, password)` returns `True` on a match and raises otherwise:
   * `VerifyMismatchError` for a wrong password, `InvalidHashError` for a hash it cannot read.
   */
  datatype VerifyOutcome = Match | Mismatch(message: string) | InvalidHash(message: string)

  /**
   * The exception `verify` raises. `VerifyMismatchError` derives from argon2's
   * `VerificationError`, not from `ValueError`; `InvalidHashError` derives from `ValueError`.
   */
  function VerifyRaises(o: VerifyOutcome): (r: Option<Exc>)
    ensures r.None? <==> o.Match?
    ensures r.Some? ==> r.value.PyExc? && r.value.message == o.message
    ensures r.Some? ==> (r.value.isValueError <==> o.InvalidHash?)
  {
    match o
    case Match => None
    case Mismatch(m) => Some(PyExc("VerifyMismatchError", false, m))
    case InvalidHash(m) => Some(PyExc("InvalidHashError", true, m))
  }

  /**
   * What `DeepFace.represent` makes of an uploaded image: a result list with exactly one
   * entry and its embedding, an empty list, a list of several entries, or an exception of its
   * own. Detection is enforced, so an image in which no face is detected is the last case
   * (DeepFace's own `ValueError`), as is an image the decoder rejects; the empty list is what
   * the extractor's "no face" branch guards against.
   */
  datatype Extraction = OneFace(embedding: Bytes) | EmptyResult | SeveralResults | Crash(error: Exc)

  const FacialEmbeddingErrorName := "FacialEmbeddingError"
  const EmbeddingFailedMessage := "Failed to generate facial embedding from the provided image."

  /** `FacialEmbeddingError` derives from `Exception`, not `ValueError`. */
  function FacialEmbeddingError(message: string): Exc
  {
    PyExc(FacialEmbeddingErrorName, false, message)
  }

  predicate IsFacialEmbeddingError(e: Exc)
  {
    e.PyExc? && e.name == FacialEmbeddingErrorName
  }

  /**
   * `generate_facial_embedding`: the embedding of the single result; an empty result list and
   * one with several entries are raised as `FacialEmbeddingError`s, which the function's
   * handler re-raises as one with the generic message; other exceptions (DeepFace's own
   * "face could not be detected" among them) pass through unchanged.
   */
  function GenerateFacialEmbedding(x: Extraction): (r: Result<Bytes, Exc>)
    ensures r.Success? <==> x.OneFace?
    ensures r.Success? ==> r.value == x.embedding
    ensures (x.EmptyResult? || x.SeveralResults?) ==>
      r == Failure(FacialEmbeddingError(EmbeddingFailedMessage))
    ensures x.Crash? && !IsFacialEmbeddingError(x.error) ==> r == Failure(x.error)
    ensures r.Failure? && IsFacialEmbeddingError(r.error) ==> r.error.message == EmbeddingFailedMessage
  {
    match x
    case OneFace(embedding) => Success(embedding)
    case EmptyResult => Failure(FacialEmbeddingError(EmbeddingFailedMessage))
    case SeveralResults => Failure(FacialEmbeddingError(EmbeddingFailedMessage))
    case Crash(e) =>
      if IsFacialEmbeddingError(e) then Failure(FacialEmbeddingError(EmbeddingFailedMessage))
      else Failure(e)
  }

  datatype Kind = AccessToken | RefreshToken

  /** The claims of a JWT the service issues: subject, token type and lifetime in seconds. */
  datatype Token = Token(sub: string, kind: Kind, expiry: nat)

  /**
   * The collaborators of one service call.
   * - `hash`: argon2 hashing of a password;
   * - `verify(hash, password)`: argon2 verification;
   * - `extract`: face extraction from an uploaded image;
   * - `matches`: `verify_facial_embeddings`, comparing two embeddings;
   * - `encode`: signing a token's claims into its compact string;
   * - `verifyToken(raw, kind)`: AuthX's decoding and checking of a token of the given type;
   *   its failures are AuthX's own exception classes, none of them an `HTTPException`;
   * - `issueFault`: the exception AuthX raises when it signs a token, if it does;
   * - `flushFault`, `commitFault`: the exception the session raises on flush or commit;
   * - `accessExpires`, `refreshExpires`: the configured token lifetimes.
   */
  datatype Deps = Deps(
    hash: string -> string,
    verify: (string, string) -> VerifyOutcome,
    extract: Upload -> Extraction,
    matches: (Bytes, Bytes) -> bool,
    encode: Token -> string,
    verifyToken: (string, Kind) -> Result<Token, Exc>,
    issueFault: Option<Exc>,
    flushFault: Option<Exc>,
    commitFault: Option<Exc>,
    accessExpires: nat,
    refreshExpires: nat)

  /**
   * One service call: its result, or the exception that escapes it; the store afterwards
   * (the session is rolled back unless its commit succeeds); the collaborator calls made.
   */
  datatype Run<T> = Run(result: Result<T, Exc>, store: Store, trace: seq<Call>)

  /** No image, or an image whose single face matches the user's stored profile. */
  predicate FaceAccepted(s: Store, deps: Deps, u: UserRow, image: Option<Upload>)
  {
    image.Some? ==>
      && ProfileOf(s.profiles, u.id).Some?
      && deps.extract(image.value).OneFace?
      && deps.matches(deps.extract(image.value).embedding, ProfileOf(s.profiles, u.id).value.embedding)
  }

  /** An image whose single embedding does not match the user's stored profile. */
  predicate FaceMismatch(s: Store, deps: Deps, u: UserRow, image: Option<Upload>)
  {
    && image.Some?
    && ProfileOf(s.profiles, u.id).Some?
    && deps.extract(image.value).OneFace?
    && !deps.matches(deps.extract(image.value).embedding, ProfileOf(s.profiles, u.id).value.embedding)
  }

  /** Python truthiness of the optional password: present and non-empty. */
  predicate PasswordGiven(password: Option<string>)
  {
    password.Some? && password.value != ""
  }

  /**
   * The password check both revisions wrote lets `u` through: no truthy password, or argon2
   * accepts it.
   */
  predicate TruthyPasswordAccepted(deps: Deps, u: UserRow, password: Option<string>)
  {
    PasswordGiven(password) ==> deps.verify(u.passwordHash, password.value).Match?
  }

  /** The collaborator calls a service run makes, in order. */
  datatype Call =
    | LookupEmail
    | ExtractEmbedding
    | HashPassword
    | AddUser
    | Flush
    | AddProfile
    | Commit
    | VerifyPassword
    | LoadProfile
    | MatchFaces
    | IssueAccess
    | IssueRefresh
    | CheckToken
    | LoadUser

  predicate IsWrite(c: Call)
  {
    c.AddUser? || c.Flush? || c.AddProfile? || c.Commit?
  }

  /** Every write to the session is preceded by a face extraction. */
  predicate ExtractsBeforeWriting(t: seq<Call>)
  {
    forall j :: 0 <= j < |t| && IsWrite(t[j]) ==> ExtractEmbedding in t[..j]
  }

  /** At most one commit. */
  predicate CommitsAtMostOnce(t: seq<Call>)
  {
    forall i, j :: 0 <= i < j < |t| && t[i] == Commit ==> t[j] != Commit
  }

  /** The password is verified before any face is extracted. */
  predicate PasswordBeforeFace(t: seq<Call>)
  {
    forall i, j :: 0 <= i < |t| && 0 <= j < |t| && t[i] == VerifyPassword && t[j] == ExtractEmbedding ==> i < j
  }

  /** Tokens are issued only as the run's last two calls, after every check. */
  predicate IssuesLast(t: seq<Call>)
  {
    forall i :: 0 <= i < |t| && (t[i] == IssueAccess || t[i] == IssueRefresh) ==> i >= |t| - 2
  }
}

=== FILE: config.dfy ===
/**
 * Deployment settings and application constants: token lifetimes and refresh-cookie
 * attributes (with environment overrides), and the image bounds the validators use, for the
 * current (`api`) revision and the older one.
 *
 * Lifetimes are whole seconds (the source uses `timedelta`).
 */
module Config {
  import opened Wrappers

  datatype SameSite = Lax | Strict | NoSameSite

  datatype Settings = Settings(
    jwtAlgorithm: string,
    accessExpires: nat,
    refreshExpires: nat,
    cookieName: string,
    cookieMaxAge: int,
    cookieHttpOnly: bool,
    cookieSecure: bool,
    cookieSameSite: SameSite,
    cookiePath: string)

  const DefaultAccessExpires: nat := 15 * 60
  const DefaultRefreshExpires: nat := 30 * 60

  /**
   * `cookie_max_age`'s default is computed in the class body from the default refresh
   * lifetime, once, when the class is defined.
   */
  const DefaultCookieMaxAge: int := DefaultRefreshExpires

  /** Environment variables that override a setting (the secret keys are not modelled). */
  datatype Overrides = Overrides(
    accessExpires: Option<nat>,
    refreshExpires: Option<nat>,
    cookieMaxAge: Option<int>)

  const NoOverrides := Overrides(None, None, None)

  /** `Settings()`: each field is its override when one is given, its default otherwise. */
  function LoadSettings(o: Overrides): (s: Settings)
    ensures o.accessExpires.None? ==> s.accessExpires == 15 * 60
    ensures o.accessExpires.Some? ==> s.accessExpires == o.accessExpires.value
    ensures o.refreshExpires.None? ==> s.refreshExpires == 30 * 60
    ensures o.refreshExpires.Some? ==> s.refreshExpires == o.refreshExpires.value
    ensures o.cookieMaxAge.None? ==> s.cookieMaxAge == 1800
    ensures o.cookieMaxAge.Some? ==> s.cookieMaxAge == o.cookieMaxAge.value
    ensures s.cookieName == "refresh_token" && s.cookieHttpOnly && s.cookieSecure
    ensures s.cookieSameSite == Strict && s.cookiePath == "/"
  {
    Settings(
      "HS256",
      if o.accessExpires.Some? then o.accessExpires.value else DefaultAccessExpires,
      if o.refreshExpires.Some? then o.refreshExpires.value else DefaultRefreshExpires,
      "refresh_token",
      if o.cookieMaxAge.Some? then o.cookieMaxAge.value else DefaultCookieMaxAge,
      true,
      true,
      Strict,
      "/")
  }

  /**
   * With no overrides, the access lifetime is strictly shorter than the refresh lifetime, and
   * the refresh cookie lives exactly as long as the refresh token.
   */
  lemma DefaultLifetimes()
    ensures LoadSettings(NoOverrides).accessExpires < LoadSettings(NoOverrides).refreshExpires
    ensures LoadSettings(NoOverrides).cookieMaxAge == LoadSettings(NoOverrides).refreshExpires
  {
  }

  /**
   * Overriding only the refresh lifetime does not move the cookie's max age, which stays at
   * the default refresh lifetime: the two agree only while the refresh lifetime is 30 minutes.
   */
  lemma CookieMaxAgeIgnoresRefreshOverride(refresh: nat)
    ensures var s := LoadSettings(Overrides(None, Some(refresh), None));
      s.cookieMaxAge == 1800 && (s.cookieMaxAge == s.refreshExpires <==> refresh == 1800)
  {
  }

  /** The image bounds a validator applies. */
  datatype ImageBounds = ImageBounds(
    allowedFormats: seq<string>,
    maxImageSizeMb: nat,
    minWidth: int,
    minHeight: int,
    maxWidth: int,
    maxHeight: int)

  /** The current revision's constants. */
  function ApiImageBounds(): (b: ImageBounds)
    ensures forall f :: f in b.allowedFormats <==> f in {"png", "jpeg", "webp"}
    ensures b.maxImageSizeMb == 5
    ensures b.minWidth == 100 && b.minHeight == 100
    ensures b.maxWidth == 4096 && b.maxHeight == 4096
    ensures b.minWidth <= b.maxWidth && b.minHeight <= b.maxHeight
  {
    ImageBounds(["png", "jpeg", "webp"], 5, 100, 100, 4096, 4096)
  }

  /**
   * The older revision's constants. Its module defines no resolution bounds (the validator
   * imports names it lacks), so the resolution bounds are parameters here.
   */
  function LegacyImageBounds(minWidth: int, minHeight: int, maxWidth: int, maxHeight: int)
    : (b: ImageBounds)
    ensures forall f :: f in b.allowedFormats <==> f in {"png", "jpeg"}
    ensures b.maxImageSizeMb == 5
    ensures b.minWidth == minWidth && b.maxHeight == maxHeight
    ensures b.maxWidth == maxWidth && b.minHeight == minHeight
  {
    ImageBounds(["png", "jpeg"], 5, minWidth, minHeight, maxWidth, maxHeight)
  }

  /** The byte limit both validators compare against. */
  function MaxImageBytes(b: ImageBounds): (n: nat)
    ensures b.maxImageSizeMb == 5 ==> n == 5242880
  {
    b.maxImageSizeMb * 1024 * 1024
  }
}

=== FILE: directory.dfy ===
/**
 * The user store the authentication service reads and writes: the `user` table (id, unique
 * email, password hash) and the `biometricprofile` table (owning user id, embedding bytes),
 * with the next id the database will assign.
 *
 * Rows are kept in insertion order so that `select(...).first()` is "the first matching row".
 * A registration writes one user row and one profile row and commits them together; `Insert`
 * is that commit.
 */
module Directory {
  import opened Wrappers

  type Bytes = seq<bv8>

  datatype UserRow = UserRow(id: nat, email: string, passwordHash: string)
  datatype ProfileRow = ProfileRow(userId: nat, embedding: Bytes)
  datatype Store = Store(users: seq<UserRow>, profiles: seq<ProfileRow>, nextId: nat)

  const Empty := Store([], [], 1)

  /** `UserDto`: the public view of a user row, its id and email (never the hash). */
  datatype UserDto = UserDto(id: nat, email: string)

  function PublicView(u: UserRow): (d: UserDto)
    ensures d.id == u.id && d.email == u.email
  {
    UserDto(u.id, u.email)
  }

  /** No two users share an email. */
  predicate UniqueEmails(users: seq<UserRow>)
  {
    forall i, j :: 0 <= i < j < |users| ==> users[i].email != users[j].email
  }

  predicate HasUser(users: seq<UserRow>, id: nat)
  {
    exists i :: 0 <= i < |users| && users[i].id == id
  }

  /**
   * The store's invariant: unique emails; ids increasing in insertion order and below the
   * next id; every profile owned by an existing user, at most one profile per user.
   */
  predicate Valid(s: Store)
  {
    && UniqueEmails(s.users)
    && (forall i, j :: 0 <= i < j < |s.users| ==> s.users[i].id < s.users[j].id)
    && (forall i :: 0 <= i < |s.users| ==> s.users[i].id < s.nextId)
    && (forall k :: 0 <= k < |s.profiles| ==> HasUser(s.users, s.profiles[k].userId))
    && (forall k, l :: 0 <= k < l < |s.profiles| ==> s.profiles[k].userId != s.profiles[l].userId)
  }

  lemma EmptyValid()
    ensures Valid(Empty)
  {
  }

  /** `select(User).where(User.email == email).first()`. */
  function FindByEmail(users: seq<UserRow>, email: string): (r: Option<UserRow>)
    ensures r.Some? ==> r.value in users && r.value.email == email
    ensures r.None? <==> forall i :: 0 <= i < |users| ==> users[i].email != email
  {
    if |users| == 0 then None
    else if users[0].email == email then Some(users[0])
    else FindByEmail(users[1..], email)
  }

  /** `session.get(User, id)`. */
  function FindById(users: seq<UserRow>, id: nat): (r: Option<UserRow>)
    ensures r.Some? ==> r.value in users && r.value.id == id
    ensures r.None? <==> !HasUser(users, id)
  {
    if |users| == 0 then None
    else if users[0].id == id then Some(users[0])
    else
      var r := FindById(users[1..], id);
      assert HasUser(users, id) <==> HasUser(users[1..], id) by {
        if HasUser(users[1..], id) {
          var i :| 0 <= i < |users[1..]| && users[1..][i].id == id;
          assert users[i + 1].id == id;
        }
      }
      r
  }

  /** `user.biometric_profile`: the profile row owned by the user, if any. */
  function ProfileOf(profiles: seq<ProfileRow>, userId: nat): (r: Option<ProfileRow>)
    ensures r.Some? ==> r.value in profiles && r.value.userId == userId
    ensures r.None? <==> forall k :: 0 <= k < |profiles| ==> profiles[k].userId != userId
  {
    if |profiles| == 0 then None
    else if profiles[0].userId == userId then Some(profiles[0])
    else ProfileOf(profiles[1..], userId)
  }

  /**
   * The one commit of a registration: the user row (with the id the flush assigned) and its
   * profile row become visible together.
   */
  function Insert(s: Store, email: string, passwordHash: string, embedding: Bytes): (s': Store)
    ensures s'.users == s.users + [UserRow(s.nextId, email, passwordHash)]
    ensures s'.profiles == s.profiles + [ProfileRow(s.nextId, embedding)]
    ensures s'.nextId == s.nextId + 1
  {
    Store(s.users + [UserRow(s.nextId, email, passwordHash)],
          s.profiles + [ProfileRow(s.nextId, embedding)],
          s.nextId + 1)
  }

  /** Inserting an email the store does not hold keeps the invariant. */
  lemma InsertPreservesValid(s: Store, email: string, passwordHash: string, embedding: Bytes)
    requires Valid(s)
    requires FindByEmail(s.users, email).None?
    ensures Valid(Insert(s, email, passwordHash, embedding))
  {
    var s' := Insert(s, email, passwordHash, embedding);
    forall k | 0 <= k < |s'.profiles|
      ensures HasUser(s'.users, s'.profiles[k].userId)
    {
      if k < |s.profiles| {
        var i :| 0 <= i < |s.users| && s.users[i].id == s.profiles[k].userId;
        assert s'.users[i] == s.users[i];
      } else {
        assert s'.users[|s.users|].id == s.nextId;
      }
    }
    forall k, l | 0 <= k < l < |s'.profiles|
      ensures s'.profiles[k].userId != s'.profiles[l].userId
    {
      if l == |s.profiles| {
        var i :| 0 <= i < |s.users| && s.users[i].id == s.profiles[k].userId;
      }
    }
  }

  /**
   * Before the commit the store held neither the new user nor a profile for its id; after
   * it, looking the email up finds exactly the new row, whose profile holds the embedding,
   * and every other email finds what it found before.
   */
  lemma InsertLookups(s: Store, email: string, passwordHash: string, embedding: Bytes)
    requires Valid(s)
    requires FindByEmail(s.users, email).None?
    ensures !HasUser(s.users, s.nextId)
    ensures ProfileOf(s.profiles, s.nextId).None?
    ensures var s' := Insert(s, email, passwordHash, embedding);
      && FindByEmail(s'.users, email) == Some(UserRow(s.nextId, email, passwordHash))
      && FindById(s'.users, s.nextId) == Some(UserRow(s.nextId, email, passwordHash))
      && ProfileOf(s'.profiles, s.nextId) == Some(ProfileRow(s.nextId, embedding))
      && (forall e :: e != email ==> FindByEmail(s'.users, e) == FindByEmail(s.users, e))
  {
    var u := UserRow(s.nextId, email, passwordHash);
    var p := ProfileRow(s.nextId, embedding);
    forall k | 0 <= k < |s.profiles| ensures s.profiles[k].userId != s.nextId {
      var i :| 0 <= i < |s.users| && s.users[i].id == s.profiles[k].userId;
    }
    FindAppended(s.users, u);
    FindByIdAppended(s.users, u);
    ProfileAppended(s.profiles, p);
    forall e | e != email ensures FindByEmail(s.users + [u], e) == FindByEmail(s.users, e) {
      FindByEmailAppendOther(s.users, u, e);
    }
  }

  lemma {:induction false} FindAppended(users: seq<UserRow>, u: UserRow)
    requires FindByEmail(users, u.email).None?
    ensures FindByEmail(users + [u], u.email) == Some(u)
  {
    if |users| > 0 {
      assert (users + [u])[1..] == users[1..] + [u];
      FindAppended(users[1..], u);
    }
  }

  lemma {:induction false} FindByEmailAppendOther(users: seq<UserRow>, u: UserRow, e: string)
    requires e != u.email
    ensures FindByEmail(users + [u], e) == FindByEmail(users, e)
  {
    if |users| > 0 {
      assert (users + [u])[1..] == users[1..] + [u];
      FindByEmailAppendOther(users[1..], u, e);
    }
  }

  lemma {:induction false} FindByIdAppended(users: seq<UserRow>, u: UserRow)
    requires !HasUser(users, u.id)
    ensures FindById(users + [u], u.id) == Some(u)
  {
    if |users| > 0 {
      assert (users + [u])[1..] == users[1..] + [u];
      FindByIdAppended(users[1..], u);
    }
  }

  lemma {:induction false} ProfileAppended(profiles: seq<ProfileRow>, p: ProfileRow)
    requires ProfileOf(profiles, p.userId).None?
    ensures ProfileOf(profiles + [p], p.userId) == Some(p)
  {
    if |profiles| > 0 {
      assert (profiles + [p])[1..] == profiles[1..] + [p];
      ProfileAppended(profiles[1..], p);
    }
  }
}

=== FILE: dtos.dfy ===
/**
 * Request DTOs and their validation: the login DTO (email plus at most one credential), the
 * current registration DTO and the older one.
 *
 * A form is what the client submitted, each field possibly absent; parsing yields the DTO or
 * the list of field errors, in field order. Field validators run first; the login DTO's
 * model validator runs only on a DTO whose fields all validated. Email syntax checking is a
 * foreign library, given here as `checkEmail`, which answers the normalised address or
 * `None` for an invalid one.
 */
module Dtos {
  import opened Wrappers
  import opened Text
  import opened HttpExceptions
  import opened PasswordRules
  import opened ImageValidation
  import opened Config

  datatype FieldName = EmailField | PasswordField | ImageDataField

  datatype ErrorKind =
    | Missing
    | InvalidEmail
    | TooShort(minLength: nat)
    | TooLong(maxLength: nat)
    | ValueErrorRaised(message: string)

  /** `loc` is `None` for an error raised by a model validator rather than a field. */
  datatype FieldError = FieldError(loc: Option<FieldName>, kind: ErrorKind)

  type EmailCheck = string -> Option<string>

  datatype LoginForm = LoginForm(email: Option<string>, password: Option<string>, image: Option<Upload>)
  datatype LoginDto = LoginDto(email: string, password: Option<string>, image: Option<Upload>)

  datatype RegisterForm = RegisterForm(email: Option<string>, password: Option<string>, image: Option<Upload>)
  datatype RegisterDto = RegisterDto(email: string, password: string, image: Upload)

  const NeitherMessage := "Either password or image_data must be provided for authentication"
  const BothMessage := "Cannot provide both password and image_data. Choose one authentication method"

  /**
   * `LoginDto.validate_auth_method`: presence is `is not None`, so an empty password counts
   * as provided. Exactly one credential present returns the DTO unchanged.
   */
  function ValidateAuthMethod(d: LoginDto): (r: Result<LoginDto, Exc>)
    ensures r.Success? <==> (d.password.Some? <==> d.image.None?)
    ensures r.Success? ==> r.value == d
    ensures d.password.None? && d.image.None? ==> r == Failure(ValueError(NeitherMessage))
    ensures d.password.Some? && d.image.Some? ==> r == Failure(ValueError(BothMessage))
  {
    if d.password.None? && d.image.None? then Failure(ValueError(NeitherMessage))
    else if d.password.Some? && d.image.Some? then Failure(ValueError(BothMessage))
    else Success(d)
  }

  /** An empty password with no image passes the rule: it is "provided". */
  lemma EmptyPasswordCountsAsProvided(email: string)
    ensures ValidateAuthMethod(LoginDto(email, Some(""), None)).Success?
  {
  }

  /** The email field's errors: required, and it must be an address. */
  function EmailErrors(checkEmail: EmailCheck, email: Option<string>): seq<FieldError>
  {
    match email
    case None => [FieldError(Some(EmailField), Missing)]
    case Some(e) => if checkEmail(e).None? then [FieldError(Some(EmailField), InvalidEmail)] else []
  }

  function ValueErrorOf(field: FieldName, r: Result<Option<Upload>, Exc>): seq<FieldError>
  {
    if r.Failure? then [FieldError(Some(field), ValueErrorRaised(Str(r.error)))] else []
  }

  /**
   * Parses a login form: email required, password and image optional (default `None`), a
   * supplied image must pass the image validator, and then exactly one credential must be
   * present.
   */
  function ParseLogin(checkEmail: EmailCheck, f: LoginForm): (r: Result<LoginDto, seq<FieldError>>)
    ensures r.Success? <==>
      && f.email.Some? && checkEmail(f.email.value).Some?
      && ValidateImageData(f.image).Success?
      && (f.password.Some? <==> f.image.None?)
    ensures r.Success? ==>
      r.value == LoginDto(checkEmail(f.email.value).value, f.password, f.image)
    ensures f.email.None? ==> r.Failure? && FieldError(Some(EmailField), Missing) in r.error
    ensures (f.email.Some? && checkEmail(f.email.value).Some? && f.password.None? && f.image.None?)
      ==> r == Failure([FieldError(None, ValueErrorRaised(NeitherMessage))])
  {
    var errors := EmailErrors(checkEmail, f.email) + ValueErrorOf(ImageDataField, ValidateImageData(f.image));
    if |errors| > 0 then Failure(errors)
    else
      var d := LoginDto(checkEmail(f.email.value).value, f.password, f.image);
      match ValidateAuthMethod(d)
      case Success(v) => Success(v)
      case Failure(e) => Failure([FieldError(None, ValueErrorRaised(Str(e)))])
  }

  /** Password field errors of the current registration DTO: 8 to 32 characters, then the
      strength rules. */
  function ApiPasswordErrors(password: Option<string>): seq<FieldError>
  {
    match password
    case None => [FieldError(Some(PasswordField), Missing)]
    case Some(pw) =>
      if |pw| < 8 then [FieldError(Some(PasswordField), TooShort(8))]
      else if |pw| > 32 then [FieldError(Some(PasswordField), TooLong(32))]
      else match ValidatePassword(pw, Defaults)
        case Success(_) => []
        case Failure(e) => [FieldError(Some(PasswordField), ValueErrorRaised(Str(e)))]
  }

  function RequiredImageErrors(image: Option<Upload>, check: Option<Upload> -> Result<Option<Upload>, Exc>)
    : seq<FieldError>
  {
    match image
    case None => [FieldError(Some(ImageDataField), Missing)]
    case Some(u) => ValueErrorOf(ImageDataField, check(Some(u)))
  }

  /**
   * Parses the current registration form: every field required; the password between 8 and
   * 32 characters and passing `validate_password`; the image passing the image validator.
   */
  function ParseRegister(checkEmail: EmailCheck, f: RegisterForm)
    : (r: Result<RegisterDto, seq<FieldError>>)
    ensures r.Success? <==>
      && f.email.Some? && checkEmail(f.email.value).Some?
      && f.password.Some? && 8 <= |f.password.value| <= 32
      && ValidatePassword(f.password.value, Defaults).Success?
      && f.image.Some? && ValidateImageData(f.image).Success?
    ensures r.Success? ==>
      r.value == RegisterDto(checkEmail(f.email.value).value, f.password.value, f.image.value)
    ensures f.image.None? ==> r.Failure? && FieldError(Some(ImageDataField), Missing) in r.error
  {
    var errors := EmailErrors(checkEmail, f.email) + ApiPasswordErrors(f.password)
      + RequiredImageErrors(f.image, ValidateImageData);
    if |errors| > 0 then Failure(errors)
    else Success(RegisterDto(checkEmail(f.email.value).value, f.password.value, f.image.value))
  }

  /**
   * The field's own length bounds coincide with `validate_password`'s defaults and are
   * checked first, so a password the DTO rejects with a strength message never fails on
   * length: the strength message never lists a length requirement.
   */
  lemma StrengthMessageNeverAboutLength(pw: string, e: FieldError)
    requires e in ApiPasswordErrors(Some(pw)) && e.kind.ValueErrorRaised?
    ensures 8 <= |pw| <= 32
    ensures MinLength !in Failures(pw, Defaults) && MaxLength !in Failures(pw, Defaults)
  {
  }

  /** Password field errors of the older registration DTO: 8 to 128 characters, nothing else. */
  function LegacyPasswordErrors(password: Option<string>): seq<FieldError>
  {
    match password
    case None => [FieldError(Some(PasswordField), Missing)]
    case Some(pw) =>
      if |pw| < 8 then [FieldError(Some(PasswordField), TooShort(8))]
      else if |pw| > 128 then [FieldError(Some(PasswordField), TooLong(128))]
      else []
  }

  /**
   * Parses the older registration form: every field required; the password between 8 and 128
   * characters with no character-class rule; the image passing the older validator, whose
   * resolution bounds are parameters.
   */
  function ParseLegacyRegister(
    checkEmail: EmailCheck, minWidth: int, minHeight: int, maxWidth: int, maxHeight: int,
    f: RegisterForm)
    : (r: Result<RegisterDto, seq<FieldError>>)
    ensures r.Success? <==>
      && f.email.Some? && checkEmail(f.email.value).Some?
      && f.password.Some? && 8 <= |f.password.value| <= 128
      && f.image.Some?
      && ValidateLegacyImageData(minWidth, minHeight, maxWidth, maxHeight, f.image).Success?
    ensures r.Success? ==>
      r.value == RegisterDto(checkEmail(f.email.value).value, f.password.value, f.image.value)
  {
    var check := (img: Option<Upload>) =>
      ValidateLegacyImageData(minWidth, minHeight, maxWidth, maxHeight, img);
    var errors := EmailErrors(checkEmail, f.email) + LegacyPasswordErrors(f.password)
      + RequiredImageErrors(f.image, check);
    if |errors| > 0 then Failure(errors)
    else Success(RegisterDto(checkEmail(f.email.value).value, f.password.value, f.image.value))
  }

  /**
   * The older DTO accepts every form the current one accepts with a PNG or JPEG image, and
   * yields the same DTO, when its resolution bounds are no stricter than the current ones:
   * 8 to 32 characters lie within 8 to 128, the strength rule only narrows, and the older
   * image checks are the current ones without WebP.
   */
  lemma CurrentFormsPassLegacy(
    checkEmail: EmailCheck, minWidth: int, minHeight: int, maxWidth: int, maxHeight: int,
    f: RegisterForm)
    requires ParseRegister(checkEmail, f).Success?
    requires f.image.Some? && f.image.value.decoded.Picture?
    requires Lower(f.image.value.decoded.format) != "webp"
    requires minWidth <= 100 && minHeight <= 100 && 4096 <= maxWidth && 4096 <= maxHeight
    ensures ParseLegacyRegister(checkEmail, minWidth, minHeight, maxWidth, maxHeight, f)
      == ParseRegister(checkEmail, f)
  {
    LegacyAcceptsCurrentImage(minWidth, minHeight, maxWidth, maxHeight, f.image.value);
    assert LegacyPasswordErrors(f.password) == [];
  }

  /**
   * The older DTO has no character-class rule: an all-lowercase password of 40 characters is
   * accepted by it and rejected by the current one.
   */
  lemma LegacyAcceptsWeakPassword(checkEmail: EmailCheck, email: string, image: Upload)
    requires checkEmail(email).Some?
    requires ValidateImageData(Some(image)).Success?
    requires ValidateLegacyImageData(100, 100, 4096, 4096, Some(image)).Success?
    ensures var f := RegisterForm(Some(email), Some(seq(40, _ => 'a')), Some(image));
      ParseLegacyRegister(checkEmail, 100, 100, 4096, 4096, f).Success?
      && ParseRegister(checkEmail, f).Failure?
  {
  }
}

=== FILE: exception_handlers.dfy ===
/**
 * The three FastAPI exception handlers that turn an exception into a JSON response, and the
 * dispatch the application installs them with (`HTTPException` to the HTTP handler, request
 * validation failures to the validation handler, everything else to the server-error handler).
 */
module ExceptionHandlers {
  import opened HttpExceptions

  /** One entry of `RequestValidationError.errors()`, kept opaque. */
  datatype ErrorDetail = ErrorDetail(loc: seq<string>, msg: string, kind: string)

  /** `HTTPException.detail` may be any value; the handler only asks whether it is a `str`. */
  datatype Detail = TextDetail(text: string) | OtherDetail(rendered: string)

  datatype ErrorBody =
    | HttpErrorBody(message: string)
    | ServerErrorBody(message: string, typeName: string)
    | ValidationErrorBody(message: string, details: seq<ErrorDetail>)

  datatype JsonResponse = JsonResponse(status: nat, content: ErrorBody)

  const ServerErrorMessage := "Oops! An unexpected error ocurred. Please, try again later."
  const ValidationMessage :=
    "Please check your input and try again. Some fields may be missing or contain invalid data."

  /**
   * `server_error_handler`: always 500 with the fixed apology, naming only the exception's
   * class, so the exception's own message never reaches the client.
   */
  function ServerErrorHandler(e: Exc): (r: JsonResponse)
    ensures r.status == 500
    ensures r.content.ServerErrorBody?
    ensures r.content.message == ServerErrorMessage
    ensures r.content.typeName == ClassName(e)
  {
    JsonResponse(500, ServerErrorBody(ServerErrorMessage, ClassName(e)))
  }

  /** `validation_exception_handler`: always 422, fixed message, the errors passed through. */
  function ValidationExceptionHandler(errors: seq<ErrorDetail>): (r: JsonResponse)
    ensures r.status == 422
    ensures r.content == ValidationErrorBody(ValidationMessage, errors)
  {
    JsonResponse(422, ValidationErrorBody(ValidationMessage, errors))
  }

  /** `http_exception_handler`: the exception's status, its detail (as text) as the message. */
  function HttpExceptionHandler(statusCode: nat, detail: Detail): (r: JsonResponse)
    ensures r.status == statusCode
    ensures r.content.HttpErrorBody?
    ensures detail.TextDetail? ==> r.content.message == detail.text
    ensures detail.OtherDetail? ==> r.content.message == detail.rendered
  {
    JsonResponse(statusCode, HttpErrorBody(
      match detail
      case TextDetail(t) => t
      case OtherDetail(rendered) => rendered))
  }

  /**
   * Which of the application's own handlers answers an exception escaping a service. AuthX's
   * handlers, registered alongside them for AuthX's exception classes, are not modelled.
   */
  function Respond(e: Exc): (r: JsonResponse)
    ensures e.HttpExc? ==> r == HttpExceptionHandler(Status(e), TextDetail(e.detail))
    ensures e.PyExc? ==> r == ServerErrorHandler(e)
  {
    match e
    case HttpExc(_, detail) => HttpExceptionHandler(Status(e), TextDetail(detail))
    case PyExc(_, _, _) => ServerErrorHandler(e)
  }

  /**
   * An application error reaches the client with its class's status code and its detail as
   * the message; any non-HTTP exception reaches it as a 500 that hides its message.
   */
  lemma RespondPreservesAppErrors(c: ErrorClass, detail: string)
    ensures Respond(Raise(c, detail)) == JsonResponse(StatusCode(c), HttpErrorBody(detail))
  {
  }

  lemma RespondHidesNonHttpMessages(name: string, isValueError: bool, message: string)
    ensures Respond(PyExc(name, isValueError, message)).status == 500
    ensures Respond(PyExc(name, isValueError, message)).content
      == ServerErrorBody(ServerErrorMessage, name)
  {
  }
}

=== FILE: frontend_schemas.dfy ===
/**
 * The browser-side form schemas: the user schema (email, password, image file), the
 * registration schema (adds a password confirmation) and the login schema (password and
 * image optional).
 *
 * A schema is read here as the list of issues it reports for a form, each with the field it
 * is attached to; a form is accepted when that list is empty. String checks and file
 * refinements do not stop at the first failure, so every failing check of a field is
 * reported; a value that is not a file at all stops that field's checks, and also keeps the
 * registration schema's whole-object refinement from running.
 */
module FrontendSchemas {
  import opened Wrappers
  import opened Text
  import opened PasswordRules

  const MaxFileSizeMb: nat := 5
  const MaxFileBytes: nat := MaxFileSizeMb * 1024 * 1024
  const AllowedFileTypes := ["image/jpeg", "image/png", "image/webp"]

  /** A browser `File`: its size in bytes and its MIME type. */
  datatype FileInfo = FileInfo(size: nat, mimeType: string)

  datatype Field = EmailField | PasswordField | ImageDataField | ConfirmPasswordField
  datatype Issue = Issue(path: Field, message: string)

  /** Email syntax checking belongs to the schema library and is a parameter here. */
  type EmailSyntax = string -> bool

  const InvalidEmailMessage := "Invalid email address"
  const TooShortMessage := "Must be at least 8 characters long"
  const NoLowercaseMessage := "Must contain at least one lowercase letter"
  const NoUppercaseMessage := "Must contain at least one uppercase letter"
  const NoDigitMessage := "Must contain at least one number"
  const NoSpecialMessage := "Must contain at least one special character"
  const NotAFileMessage := "Please select a image file"
  const FileTooLargeMessage := "File size must be less than 5 MB"
  const FileTypeMessage := "File type must be JPEG, PNG, or WebP"
  const MismatchMessage := "Passwords don't match"

  /**
   * A string's JavaScript `length`: UTF-16 code units, so a character above U+FFFF counts
   * twice.
   */
  function JsLength(s: string): (n: nat)
    ensures |s| <= n <= 2 * |s|
    ensures WithinBmp(s) ==> n == |s|
    decreases |s|
  {
    if |s| == 0 then 0 else (if s[0] as int > 0xFFFF then 2 else 1) + JsLength(s[1..])
  }

  /** Every character is in the Basic Multilingual Plane (one UTF-16 code unit). */
  predicate WithinBmp(s: string)
  {
    forall i :: 0 <= i < |s| ==> s[i] as int <= 0xFFFF
  }

  /**
   * The password rule, stated over the password's characters: at least 8 UTF-16 code units
   * and no upper length bound.
   */
  predicate StrongPassword(pw: string)
  {
    && JsLength(pw) >= 8
    && (exists i :: 0 <= i < |pw| && IsLower(pw[i]))
    && (exists i :: 0 <= i < |pw| && IsUpper(pw[i]))
    && (exists i :: 0 <= i < |pw| && IsDigit(pw[i]))
    && (exists i :: 0 <= i < |pw| && !IsAlnum(pw[i]))
  }

  function IssueIf(failed: bool, field: Field, message: string): seq<Issue>
  {
    if failed then [Issue(field, message)] else []
  }

  /** The password chain: minimum length, then the four character-class patterns. */
  function PasswordIssues(pw: string): (r: seq<Issue>)
    ensures |r| == 0 <==> StrongPassword(pw)
    ensures forall k :: 0 <= k < |r| ==> r[k].path == PasswordField
    ensures Issue(PasswordField, TooShortMessage) in r <==> JsLength(pw) < 8
  {
    IssueIf(JsLength(pw) < 8, PasswordField, TooShortMessage)
    + IssueIf(!AnyLower(pw), PasswordField, NoLowercaseMessage)
    + IssueIf(!AnyUpper(pw), PasswordField, NoUppercaseMessage)
    + IssueIf(!AnyDigit(pw), PasswordField, NoDigitMessage)
    + IssueIf(AllAlnum(pw), PasswordField, NoSpecialMessage)
  }

  predicate AcceptableFile(f: FileInfo)
  {
    f.size <= MaxFileBytes && f.mimeType in AllowedFileTypes
  }

  /**
   * The image chain: a value that is not a file stops with one issue; a file gets an issue
   * for each of size and type it fails.
   */
  function FileIssues(img: Option<FileInfo>): (r: seq<Issue>)
    ensures |r| == 0 <==> img.Some? && AcceptableFile(img.value)
    ensures img.None? ==> r == [Issue(ImageDataField, NotAFileMessage)]
    ensures forall k :: 0 <= k < |r| ==> r[k].path == ImageDataField
  {
    match img
    case None => [Issue(ImageDataField, NotAFileMessage)]
    case Some(f) =>
      IssueIf(f.size > MaxFileBytes, ImageDataField, FileTooLargeMessage)
      + IssueIf(f.mimeType !in AllowedFileTypes, ImageDataField, FileTypeMessage)
  }

  function EmailIssues(isEmail: EmailSyntax, email: string): seq<Issue>
  {
    IssueIf(!isEmail(email), EmailField, InvalidEmailMessage)
  }

  /** The registration form; `imageData` is `None` when the field does not hold a file. */
  datatype RegisterForm = RegisterForm(
    email: string, password: string, confirmPassword: string, imageData: Option<FileInfo>)

  /**
   * `registerFormSchema`: every field required and checked; when no field stopped, a
   * password confirmation that differs is reported on `confirmPassword`.
   */
  function RegisterIssues(isEmail: EmailSyntax, f: RegisterForm): (r: seq<Issue>)
    ensures |r| == 0 <==>
      && isEmail(f.email)
      && StrongPassword(f.password)
      && f.imageData.Some? && AcceptableFile(f.imageData.value)
      && f.password == f.confirmPassword
    ensures Issue(ConfirmPasswordField, MismatchMessage) in r <==>
      f.imageData.Some? && f.password != f.confirmPassword
  {
    var fields := EmailIssues(isEmail, f.email) + PasswordIssues(f.password) + FileIssues(f.imageData);
    assert forall k :: 0 <= k < |fields| ==> fields[k].path != ConfirmPasswordField;
    assert Issue(ConfirmPasswordField, MismatchMessage) !in fields;
    if f.imageData.None? then fields
    else fields + IssueIf(f.password != f.confirmPassword, ConfirmPasswordField, MismatchMessage)
  }

  /** The login form: password and image may be left out. */
  datatype LoginForm = LoginForm(email: string, password: Option<string>, imageData: Option<FileInfo>)

  /**
   * `loginFormSchema`: the user schema with password and image optional; a value that is
   * present is checked as in registration.
   */
  function LoginIssues(isEmail: EmailSyntax, f: LoginForm): (r: seq<Issue>)
    ensures |r| == 0 <==>
      && isEmail(f.email)
      && (f.password.Some? ==> StrongPassword(f.password.value))
      && (f.imageData.Some? ==> AcceptableFile(f.imageData.value))
  {
    EmailIssues(isEmail, f.email)
    + (if f.password.Some? then PasswordIssues(f.password.value) else [])
    + (if f.imageData.Some? then FileIssues(f.imageData) else [])
  }

  /**
   * The login schema accepts a form with neither credential, and one with both: the
   * exactly-one rule is the backend's alone.
   */
  lemma LoginSchemaAllowsNeitherAndBoth(isEmail: EmailSyntax, email: string, pw: string, f: FileInfo)
    requires isEmail(email) && StrongPassword(pw) && AcceptableFile(f)
    ensures LoginIssues(isEmail, LoginForm(email, None, None)) == []
    ensures LoginIssues(isEmail, LoginForm(email, Some(pw), Some(f))) == []
  {
  }

  /**
   * For passwords whose letters and digits are ASCII, the two rules agree up to length. The
   * browser measures length in UTF-16 code units, the backend in characters. A password the
   * backend accepts is accepted here; one accepted here is accepted by the backend when it
   * has 8 to 32 characters, which for a password within the Basic Multilingual Plane means
   * at most 32. The backend's character classes are Python's Unicode ones and the
   * browser's regular expressions are ASCII, so with non-ASCII letters the agreement fails
   * in both directions; `Text` models the ASCII classes only.
   */
  lemma PasswordRulesAgreeUpTo32(pw: string)
    ensures ValidatePassword(pw, Defaults).Success? ==> StrongPassword(pw)
    ensures StrongPassword(pw) && 8 <= |pw| <= 32 ==> ValidatePassword(pw, Defaults).Success?
    ensures WithinBmp(pw) && StrongPassword(pw) && |pw| <= 32 ==> ValidatePassword(pw, Defaults).Success?
  {
    DefaultsAccept(pw);
  }

  /**
   * Three emoji count six code units in the browser but three characters in the backend:
   * "Aa1" followed by three U+1F600 passes the browser's rule and is too short for the
   * backend.
   */
  lemma AstralPasswordPassesOnlyInTheBrowser()
    ensures var pw := "Aa1\U{1F600}\U{1F600}\U{1F600}";
      StrongPassword(pw) && ValidatePassword(pw, Defaults).Failure?
  {
    var pw := "Aa1\U{1F600}\U{1F600}\U{1F600}";
    assert JsLength(pw) == 9;
    assert IsLower(pw[1]) && IsUpper(pw[0]) && IsDigit(pw[2]) && !IsAlnum(pw[3]);
    LengthOutOfRangeFails(pw, Defaults);
  }

  /** A 40-character password passes the browser's rule and fails the backend's. */
  lemma LongPasswordPassesOnlyInTheBrowser()
    ensures var pw := "Aa1!" + seq(36, _ => 'a');
      StrongPassword(pw) && ValidatePassword(pw, Defaults).Failure?
  {
    var pw := "Aa1!" + seq(36, _ => 'a');
    assert IsLower(pw[1]) && IsUpper(pw[0]) && IsDigit(pw[2]) && !IsAlnum(pw[3]);
    LengthOutOfRangeFails(pw, Defaults);
  }

  /** Both sides allow exactly 5 MiB and not a byte more. */
  lemma FileLimitMatchesBackend()
    ensures MaxFileBytes == 5242880
    ensures FileIssues(Some(FileInfo(5242880, "image/png"))) == []
    ensures FileIssues(Some(FileInfo(5242881, "image/png"))) == [Issue(ImageDataField, FileTooLargeMessage)]
  {
  }
}

=== FILE: http_exceptions.dfy ===
/**
 * The backend's HTTP error classes and the Python exceptions that flow through the
 * authentication service.
 *
 * `Exc` is "an exception object in flight": either an `HTTPException` (one of the five
 * application error classes, or a bare FastAPI `HTTPException` with its own status) or any
 * other Python exception, of which the model keeps the class name, whether the class derives
 * from `ValueError`, and the message `str(e)` gives.
 */
module HttpExceptions {
  import opened Wrappers
  import opened Text

  datatype ErrorClass =
    | BadRequestError
    | UnauthorizedError
    | ForbiddenError
    | NotFoundError
    | InternalServerError

  datatype HttpClass =
    | App(cls: ErrorClass)
    | PlainHttpException(status: nat)

  datatype Exc =
    | HttpExc(http: HttpClass, detail: string)
    | PyExc(name: string, isValueError: bool, message: string)

  /** The status code each application error class passes to `HTTPException.__init__`. */
  function StatusCode(c: ErrorClass): (code: nat)
    ensures 400 <= code < 600
    ensures code == 500 <==> c == InternalServerError
    ensures code < 500 <==> c != InternalServerError
  {
    match c
    case BadRequestError => 400
    case UnauthorizedError => 401
    case ForbiddenError => 403
    case NotFoundError => 404
    case InternalServerError => 500
  }

  /** The detail each class uses when constructed without one. */
  function DefaultDetail(c: ErrorClass): string
  {
    match c
    case BadRequestError => "Bad Request"
    case UnauthorizedError => "Unauthorized"
    case ForbiddenError => "Forbidden"
    case NotFoundError => "Not Found"
    case InternalServerError => "Internal Server Error"
  }

  /** Distinct classes carry distinct status codes. */
  lemma StatusCodeInjective(a: ErrorClass, b: ErrorClass)
    requires StatusCode(a) == StatusCode(b)
    ensures a == b
  {
  }

  /**
   * `BadRequestError(detail)` and its siblings: the exception carries the class's status and
   * the supplied detail unchanged, or the class's default detail when none is supplied.
   */
  function NewError(c: ErrorClass, detail: Option<string>): (e: Exc)
    ensures e.HttpExc? && e.http == App(c)
    ensures Status(e) == StatusCode(c)
    ensures detail.Some? ==> e.detail == detail.value
    ensures detail.None? ==> e.detail == DefaultDetail(c)
  {
    HttpExc(App(c), if detail.Some? then detail.value else DefaultDetail(c))
  }

  /** `exc.status_code` of an `HTTPException`. */
  function Status(e: Exc): nat
    requires e.HttpExc?
  {
    match e.http
    case App(c) => StatusCode(c)
    case PlainHttpException(s) => s
  }

  /** Shorthand for raising an application error with an explicit detail. */
  function Raise(c: ErrorClass, detail: string): Exc
  {
    NewError(c, Some(detail))
  }

  /**
   * `str(e)`. Starlette's `HTTPException.__str__` renders "<status>: <detail>"; every other
   * exception raised here was built from one message argument, which `str` returns.
   */
  function Str(e: Exc): string
  {
    match e
    case HttpExc(_, detail) => IntToString(Status(e)) + ": " + detail
    case PyExc(_, _, message) => message
  }

  function ErrorClassName(c: ErrorClass): string
  {
    match c
    case BadRequestError => "BadRequestError"
    case UnauthorizedError => "UnauthorizedError"
    case ForbiddenError => "ForbiddenError"
    case NotFoundError => "NotFoundError"
    case InternalServerError => "InternalServerError"
  }

  /** `type(e).__name__`. */
  function ClassName(e: Exc): string
  {
    match e
    case HttpExc(App(c), _) => ErrorClassName(c)
    case HttpExc(PlainHttpException(_), _) => "HTTPException"
    case PyExc(name, _, _) => name
  }

  /** `ValueError(message)`. */
  function ValueError(message: string): Exc
  {
    PyExc("ValueError", true, message)
  }

  /** True when `e` is an instance of the application error class `c`. */
  predicate IsA(e: Exc, c: ErrorClass)
  {
    e.HttpExc? && e.http == App(c)
  }
}

=== FILE: image_validation.dfy ===
/**
 * `validate_image_data`, in the current revision and the older one, over abstract image
 * metadata: what the image decoder reports (nothing for bytes it cannot identify; width,
 * height and format name otherwise) and the upload's byte length.
 *
 * Both revisions run the same five checks in the same order and report the first that fails;
 * they differ in their bounds and in the text of the format failure.
 */
module ImageValidation {
  import opened Wrappers
  import opened Text
  import opened HttpExceptions
  import opened Config

  datatype Decoded = Unidentified | Picture(width: nat, height: nat, format: string)

  /** An uploaded file: its length in bytes and what the decoder makes of those bytes. */
  datatype Upload = Upload(byteLength: nat, decoded: Decoded)

  datatype ImageCheck = NotEmpty | MinResolution | MaxResolution | AllowedFormat | MaxSize

  /** Position of a check in the validator's order. */
  function CheckRank(c: ImageCheck): nat
  {
    match c
    case NotEmpty => 0
    case MinResolution => 1
    case MaxResolution => 2
    case AllowedFormat => 3
    case MaxSize => 4
  }

  /** When a decoded upload fails a check under bounds `b`. */
  predicate Violates(c: ImageCheck, b: ImageBounds, u: Upload)
    requires u.decoded.Picture?
  {
    var p := u.decoded;
    match c
    case NotEmpty => p.width == 0 && p.height == 0
    case MinResolution => p.width < b.minWidth || p.height < b.minHeight
    case MaxResolution => p.width > b.maxWidth || p.height > b.maxHeight
    case AllowedFormat => Lower(p.format) !in b.allowedFormats
    case MaxSize => u.byteLength > MaxImageBytes(b)
  }

  /** The message of the `ValueError` a failed check raises. */
  function CheckMessage(c: ImageCheck, b: ImageBounds, formatMessage: string): string
  {
    match c
    case NotEmpty => "Image cannot be empty"
    case MinResolution =>
      "Image resolution must be at least " + IntToString(b.minWidth) + "x"
      + IntToString(b.minHeight) + " pixels"
    case MaxResolution =>
      "Image resolution must not exceed " + IntToString(b.maxWidth) + "x"
      + IntToString(b.maxHeight) + " pixels"
    case AllowedFormat => formatMessage
    case MaxSize => "Image size must not exceed " + IntToString(b.maxImageSizeMb) + " MB"
  }

  const UndecodableMessage := "Invalid image data provided"

  /**
   * The shared body of both revisions: `None` passes through; an undecodable upload is a
   * `ValueError`; a decoded one is returned unchanged exactly when no check fails, and
   * otherwise the first failing check in order is reported.
   */
  function Validate(b: ImageBounds, formatMessage: string, img: Option<Upload>)
    : (r: Result<Option<Upload>, Exc>)
    ensures img.None? ==> r == Success(None)
    ensures img.Some? && img.value.decoded.Unidentified? ==>
      r == Failure(ValueError(UndecodableMessage))
    ensures img.Some? && img.value.decoded.Picture? ==>
      && (r.Success? <==> forall c :: !Violates(c, b, img.value))
      && (r.Success? ==> r.value == img)
      && (r.Failure? ==> exists c :: (FirstViolated(c, b, img.value)
            && r.error == ValueError(CheckMessage(c, b, formatMessage))))
  {
    match img
    case None => Success(None)
    case Some(u) =>
      match u.decoded
      case Unidentified => Failure(ValueError(UndecodableMessage))
      case Picture(w, h, format) =>
        if w == 0 && h == 0 then Reject(NotEmpty, b, formatMessage, u)
        else if w < b.minWidth || h < b.minHeight then Reject(MinResolution, b, formatMessage, u)
        else if w > b.maxWidth || h > b.maxHeight then Reject(MaxResolution, b, formatMessage, u)
        else if Lower(format) !in b.allowedFormats then Reject(AllowedFormat, b, formatMessage, u)
        else if u.byteLength > MaxImageBytes(b) then Reject(MaxSize, b, formatMessage, u)
        else
          PassesAllChecks(b, u);
          Success(img)
  }

  lemma PassesAllChecks(b: ImageBounds, u: Upload)
    requires u.decoded.Picture?
    requires !(u.decoded.width == 0 && u.decoded.height == 0)
    requires !(u.decoded.width < b.minWidth || u.decoded.height < b.minHeight)
    requires !(u.decoded.width > b.maxWidth || u.decoded.height > b.maxHeight)
    requires Lower(u.decoded.format) in b.allowedFormats
    requires u.byteLength <= MaxImageBytes(b)
    ensures forall c :: !Violates(c, b, u)
  {
    forall c ensures !Violates(c, b, u) {
      match c
      case NotEmpty =>
      case MinResolution =>
      case MaxResolution =>
      case AllowedFormat =>
      case MaxSize =>
    }
  }

  /** `c` fails and every check before it passes. */
  predicate FirstViolated(c: ImageCheck, b: ImageBounds, u: Upload)
    requires u.decoded.Picture?
  {
    Violates(c, b, u) && forall d :: CheckRank(d) < CheckRank(c) ==> !Violates(d, b, u)
  }

  function Reject(c: ImageCheck, b: ImageBounds, formatMessage: string, u: Upload)
    : (r: Result<Option<Upload>, Exc>)
    requires u.decoded.Picture?
    requires FirstViolated(c, b, u)
    ensures r.Failure? && r.error == ValueError(CheckMessage(c, b, formatMessage))
  {
    Failure(ValueError(CheckMessage(c, b, formatMessage)))
  }

  const ApiFormatMessage := "Image must be either JPEG, PNG or WebP"
  const LegacyFormatMessage := "Image must be either JPEG or PNG"

  /** The current revision's validator, with its constants. */
  function ValidateImageData(img: Option<Upload>): (r: Result<Option<Upload>, Exc>)
    ensures img.None? ==> r == Success(None)
    ensures r.Success? ==> r.value == img
    ensures img.Some? && img.value.decoded.Picture? ==>
      (r.Success? <==> forall c :: !Violates(c, ApiImageBounds(), img.value))
  {
    Validate(ApiImageBounds(), ApiFormatMessage, img)
  }

  /** The older revision's validator; its resolution bounds are parameters. */
  function ValidateLegacyImageData(
    minWidth: int, minHeight: int, maxWidth: int, maxHeight: int, img: Option<Upload>)
    : (r: Result<Option<Upload>, Exc>)
    ensures img.None? ==> r == Success(None)
    ensures r.Success? ==> r.value == img
    ensures img.Some? && img.value.decoded.Unidentified? ==>
      r == Failure(ValueError(UndecodableMessage))
  {
    Validate(LegacyImageBounds(minWidth, minHeight, maxWidth, maxHeight), LegacyFormatMessage, img)
  }

  /**
   * The older validator accepts every PNG or JPEG image the current one accepts, when its
   * resolution bounds are no stricter than the current ones.
   */
  lemma LegacyAcceptsCurrentImage(minWidth: int, minHeight: int, maxWidth: int, maxHeight: int, u: Upload)
    requires ValidateImageData(Some(u)).Success?
    requires u.decoded.Picture? && Lower(u.decoded.format) != "webp"
    requires minWidth <= 100 && minHeight <= 100 && 4096 <= maxWidth && 4096 <= maxHeight
    ensures ValidateLegacyImageData(minWidth, minHeight, maxWidth, maxHeight, Some(u)) == Success(Some(u))
  {
    var api := ApiImageBounds();
    var b := LegacyImageBounds(minWidth, minHeight, maxWidth, maxHeight);
    forall c ensures !Violates(c, b, u) {
      assert !Violates(c, api, u);
      match c
      case NotEmpty =>
      case MinResolution =>
      case MaxResolution =>
      case AllowedFormat =>
        assert Lower(u.decoded.format) in api.allowedFormats;
      case MaxSize =>
    }
  }

  /** A well-sized 100x100 PNG that is otherwise fine. */
  function SamplePng(byteLength: nat): Upload
  {
    Upload(byteLength, Picture(100, 100, "PNG"))
  }

  /**
   * The byte limit is inclusive: exactly 5 MiB passes and one byte more fails, in both
   * revisions.
   */
  lemma SizeLimitInclusive()
    ensures ValidateImageData(Some(SamplePng(5242880))) == Success(Some(SamplePng(5242880)))
    ensures ValidateImageData(Some(SamplePng(5242881)))
      == Failure(ValueError(CheckMessage(MaxSize, ApiImageBounds(), ApiFormatMessage)))
    ensures ValidateLegacyImageData(100, 100, 4096, 4096, Some(SamplePng(5242880))).Success?
    ensures ValidateLegacyImageData(100, 100, 4096, 4096, Some(SamplePng(5242881))).Failure?
  {
    assert Lower("PNG") == "png";
  }

  /**
   * A WebP image passes the current validator and fails the older one with the older
   * revision's format message.
   */
  lemma WebpAcceptedOnlyByCurrentRevision()
    ensures ValidateImageData(Some(Upload(1000, Picture(640, 480, "WEBP")))).Success?
    ensures ValidateLegacyImageData(100, 100, 4096, 4096, Some(Upload(1000, Picture(640, 480, "WEBP"))))
      == Failure(ValueError(LegacyFormatMessage))
  {
    assert Lower("WEBP") == "webp";
    var legacy := LegacyImageBounds(100, 100, 4096, 4096);
    var u := Upload(1000, Picture(640, 480, "WEBP"));
    assert FirstViolated(AllowedFormat, legacy, u);
  }

  /**
   * A 0x0 image is reported as empty, never as too small, although it is below the minimum
   * resolution too.
   */
  lemma EmptyReportedBeforeResolution(format: string, byteLength: nat)
    ensures ValidateImageData(Some(Upload(byteLength, Picture(0, 0, format))))
      == Failure(ValueError("Image cannot be empty"))
  {
  }

  /** Only a 0x0 image is "empty": a 0-wide image of some height is reported as too small. */
  lemma ZeroWidthIsTooSmall(height: nat, format: string, byteLength: nat)
    requires height > 0
    ensures ValidateImageData(Some(Upload(byteLength, Picture(0, height, format))))
      == Failure(ValueError(CheckMessage(MinResolution, ApiImageBounds(), ApiFormatMessage)))
  {
  }
}

=== FILE: password_rules.dfy ===
/**
 * `validate_password`: the password-strength rules of the current backend revision.
 *
 * Each rule is a `Requirement`; `Fails` says, independently of how the validator scans the
 * password, when a requirement is unmet. The validator reports the unmet requirements in its
 * fixed check order.
 */
module PasswordRules {
  import opened Wrappers
  import opened Text
  import opened HttpExceptions

  datatype Options = Options(
    minLength: int,
    maxLength: int,
    requireDigit: bool,
    requireLowercase: bool,
    requireUppercase: bool,
    requireNonAlphanumeric: bool)

  /** The keyword defaults: 8 to 32 characters, every character class required. */
  const Defaults := Options(8, 32, true, true, true, true)

  datatype Requirement = MinLength | MaxLength | Digit | Lowercase | Uppercase | NonAlphanumeric

  /** Position of a requirement in the validator's check order. */
  function Rank(q: Requirement): nat
  {
    match q
    case MinLength => 0
    case MaxLength => 1
    case Digit => 2
    case Lowercase => 3
    case Uppercase => 4
    case NonAlphanumeric => 5
  }

  /** When a requirement is unmet, stated with quantifiers over the password's characters. */
  predicate Fails(q: Requirement, pw: string, o: Options)
  {
    match q
    case MinLength => |pw| < o.minLength
    case MaxLength => |pw| > o.maxLength
    case Digit => o.requireDigit && !(exists i :: 0 <= i < |pw| && IsDigit(pw[i]))
    case Lowercase => o.requireLowercase && !(exists i :: 0 <= i < |pw| && IsLower(pw[i]))
    case Uppercase => o.requireUppercase && !(exists i :: 0 <= i < |pw| && IsUpper(pw[i]))
    case NonAlphanumeric => o.requireNonAlphanumeric && forall i :: 0 <= i < |pw| ==> IsAlnum(pw[i])
  }

  /** The phrase the validator appends for an unmet requirement. */
  function Phrase(q: Requirement, o: Options): string
  {
    match q
    case MinLength => "at least " + IntToString(o.minLength) + " characters"
    case MaxLength => "no more than " + IntToString(o.maxLength) + " characters"
    case Digit => "at least one digit"
    case Lowercase => "at least one lowercase letter"
    case Uppercase => "at least one uppercase letter"
    case NonAlphanumeric => "at least one non-alphanumeric character"
  }

  /** `any(c.isdigit() for c in pw)` and friends: a left-to-right scan. */
  function AnyDigit(pw: string): (b: bool)
    ensures b <==> exists i :: 0 <= i < |pw| && IsDigit(pw[i])
  {
    if |pw| == 0 then false
    else IsDigit(pw[0]) || (assert forall i :: 0 <= i < |pw| - 1 ==> pw[1..][i] == pw[i + 1]; AnyDigit(pw[1..]))
  }

  function AnyLower(pw: string): (b: bool)
    ensures b <==> exists i :: 0 <= i < |pw| && IsLower(pw[i])
  {
    if |pw| == 0 then false
    else IsLower(pw[0]) || (assert forall i :: 0 <= i < |pw| - 1 ==> pw[1..][i] == pw[i + 1]; AnyLower(pw[1..]))
  }

  function AnyUpper(pw: string): (b: bool)
    ensures b <==> exists i :: 0 <= i < |pw| && IsUpper(pw[i])
  {
    if |pw| == 0 then false
    else IsUpper(pw[0]) || (assert forall i :: 0 <= i < |pw| - 1 ==> pw[1..][i] == pw[i + 1]; AnyUpper(pw[1..]))
  }

  /** `all(c.isalnum() for c in pw)`, true of the empty string. */
  function AllAlnum(pw: string): (b: bool)
    ensures b <==> forall i :: 0 <= i < |pw| ==> IsAlnum(pw[i])
  {
    if |pw| == 0 then true
    else IsAlnum(pw[0]) && (assert forall i :: 0 <= i < |pw| - 1 ==> pw[1..][i] == pw[i + 1]; AllAlnum(pw[1..]))
  }

  /** The order in which `validate_password` checks the requirements. */
  const CheckOrder := [MinLength, MaxLength, Digit, Lowercase, Uppercase, NonAlphanumeric]

  /** One requirement checked the way the validator checks it, by scanning the password. */
  function Check(q: Requirement, pw: string, o: Options): (failed: bool)
    ensures failed <==> Fails(q, pw, o)
  {
    match q
    case MinLength => |pw| < o.minLength
    case MaxLength => |pw| > o.maxLength
    case Digit => o.requireDigit && !AnyDigit(pw)
    case Lowercase => o.requireLowercase && !AnyLower(pw)
    case Uppercase => o.requireUppercase && !AnyUpper(pw)
    case NonAlphanumeric => o.requireNonAlphanumeric && AllAlnum(pw)
  }

  predicate Ordered(qs: seq<Requirement>)
  {
    forall i, j :: 0 <= i < j < |qs| ==> Rank(qs[i]) < Rank(qs[j])
  }

  /** The requirements of `qs` that fail, kept in their order. */
  function Unmet(qs: seq<Requirement>, pw: string, o: Options): (fs: seq<Requirement>)
    requires Ordered(qs)
    ensures forall q :: q in fs <==> q in qs && Fails(q, pw, o)
    ensures Ordered(fs)
  {
    if |qs| == 0 then []
    else
      var rest := Unmet(qs[1..], pw, o);
      assert forall q :: q in rest ==> Rank(qs[0]) < Rank(q);
      if Check(qs[0], pw, o) then [qs[0]] + rest else rest
  }

  lemma CheckOrderComplete()
    ensures forall q: Requirement :: q in CheckOrder
  {
    forall q: Requirement ensures q in CheckOrder {
      match q
      case MinLength => assert CheckOrder[0] == q;
      case MaxLength => assert CheckOrder[1] == q;
      case Digit => assert CheckOrder[2] == q;
      case Lowercase => assert CheckOrder[3] == q;
      case Uppercase => assert CheckOrder[4] == q;
      case NonAlphanumeric => assert CheckOrder[5] == q;
    }
  }

  /**
   * The `errors` list `validate_password` builds: exactly the unmet requirements, each once,
   * in check order.
   */
  function Failures(pw: string, o: Options): (fs: seq<Requirement>)
    ensures forall q :: q in fs <==> Fails(q, pw, o)
    ensures forall i, j :: 0 <= i < j < |fs| ==> Rank(fs[i]) < Rank(fs[j])
  {
    CheckOrderComplete();
    Unmet(CheckOrder, pw, o)
  }

  function Phrases(fs: seq<Requirement>, o: Options): (ps: seq<string>)
    ensures |ps| == |fs|
    ensures forall i :: 0 <= i < |fs| ==> ps[i] == Phrase(fs[i], o)
  {
    if |fs| == 0 then [] else [Phrase(fs[0], o)] + Phrases(fs[1..], o)
  }

  const MessagePrefix := "Password must contain "

  /**
   * `validate_password(pw, ...)`: the password itself exactly when every requirement holds;
   * otherwise a `ValueError` whose message lists the unmet requirements in check order.
   */
  function ValidatePassword(pw: string, o: Options): (r: Result<string, Exc>)
    ensures r.Success? <==> forall q :: !Fails(q, pw, o)
    ensures r.Success? ==> r.value == pw
    ensures r.Failure? ==> r.error == ValueError(
      MessagePrefix + Join(Phrases(Failures(pw, o), o), ", "))
    ensures r.Failure? ==> |Failures(pw, o)| >= 1
  {
    var fs := Failures(pw, o);
    if |fs| == 0 then Success(pw)
    else
      assert fs[0] in fs;
      Failure(ValueError(MessagePrefix + Join(Phrases(fs, o), ", ")))
  }

  /** With the defaults, acceptance is exactly the familiar strength rule. */
  lemma DefaultsAccept(pw: string)
    ensures ValidatePassword(pw, Defaults).Success? <==>
      && 8 <= |pw| <= 32
      && (exists i :: 0 <= i < |pw| && IsDigit(pw[i]))
      && (exists i :: 0 <= i < |pw| && IsLower(pw[i]))
      && (exists i :: 0 <= i < |pw| && IsUpper(pw[i]))
      && (exists i :: 0 <= i < |pw| && !IsAlnum(pw[i]))
  {
    var ok := ValidatePassword(pw, Defaults).Success?;
    if ok {
      assert !Fails(MinLength, pw, Defaults) && !Fails(MaxLength, pw, Defaults);
      assert !Fails(Digit, pw, Defaults) && !Fails(Lowercase, pw, Defaults);
      assert !Fails(Uppercase, pw, Defaults) && !Fails(NonAlphanumeric, pw, Defaults);
    }
  }

  /** `o'` is `o` with some requirement flags turned off. */
  predicate Relaxes(o': Options, o: Options)
  {
    && o'.minLength == o.minLength
    && o'.maxLength == o.maxLength
    && (o'.requireDigit ==> o.requireDigit)
    && (o'.requireLowercase ==> o.requireLowercase)
    && (o'.requireUppercase ==> o.requireUppercase)
    && (o'.requireNonAlphanumeric ==> o.requireNonAlphanumeric)
  }

  /** Turning a flag off never adds a failure, so it never rejects a password `o` accepts. */
  lemma RelaxingNeverAddsFailures(pw: string, o': Options, o: Options)
    requires Relaxes(o', o)
    ensures forall q :: q in Failures(pw, o') ==> q in Failures(pw, o)
    ensures ValidatePassword(pw, o).Success? ==> ValidatePassword(pw, o').Success?
  {
  }

  /** A length outside `[minLength, maxLength]` is always reported, whatever the flags. */
  lemma LengthOutOfRangeFails(pw: string, o: Options)
    requires |pw| < o.minLength || |pw| > o.maxLength
    ensures MinLength in Failures(pw, o) || MaxLength in Failures(pw, o)
    ensures ValidatePassword(pw, o).Failure?
  {
    if |pw| < o.minLength {
      assert Fails(MinLength, pw, o);
    } else {
      assert Fails(MaxLength, pw, o);
    }
  }

  /**
   * The non-alphanumeric rule fails exactly when every character is alphanumeric; the empty
   * string has no non-alphanumeric character, so it fails the rule.
   */
  lemma NonAlphanumericRule(pw: string, o: Options)
    requires o.requireNonAlphanumeric
    ensures NonAlphanumeric in Failures(pw, o) <==> forall i :: 0 <= i < |pw| ==> IsAlnum(pw[i])
    ensures pw == "" ==> NonAlphanumeric in Failures(pw, o)
  {
  }
}

=== FILE: text.dfy ===
/**
 * String helpers shared by the backend (Python `str`) and the frontend (JavaScript `string`)
 * models: character classes, splitting on one separator character, joining, and decimal
 * formatting and parsing of integers.
 *
 * Character classes are the ASCII ones; Python's `str.isdigit`/`islower`/`isupper`/`isalnum`
 * also accept non-ASCII letters and digits, which this model does not classify.
 */
module Text {
  import opened Wrappers

  predicate IsDigit(c: char) { '0' <= c <= '9' }
  predicate IsLower(c: char) { 'a' <= c <= 'z' }
  predicate IsUpper(c: char) { 'A' <= c <= 'Z' }
  predicate IsAlnum(c: char) { IsDigit(c) || IsLower(c) || IsUpper(c) }

  /** ASCII lower-casing, as `str.lower()` acts on the ASCII format names PIL reports. */
  function LowerChar(c: char): (l: char)
    ensures !IsUpper(l)
    ensures !IsUpper(c) ==> l == c
  {
    if IsUpper(c) then (c as int + 32) as char else c
  }

  function Lower(s: string): (l: string)
    ensures |l| == |s|
    ensures forall i :: 0 <= i < |s| ==> l[i] == LowerChar(s[i])
  {
    if |s| == 0 then "" else [LowerChar(s[0])] + Lower(s[1..])
  }

  predicate StartsWith(s: string, prefix: string) {
    |prefix| <= |s| && s[..|prefix|] == prefix
  }

  predicate EndsWith(s: string, suffix: string) {
    |suffix| <= |s| && s[|s| - |suffix|..] == suffix
  }

  /** Position of the first occurrence of `c` in `s`. */
  function IndexOf(s: string, c: char): (r: Option<nat>)
    ensures r.Some? ==> r.value < |s| && s[r.value] == c
    ensures r.Some? ==> forall k :: 0 <= k < r.value ==> s[k] != c
    ensures r.None? ==> forall k :: 0 <= k < |s| ==> s[k] != c
  {
    if |s| == 0 then None
    else if s[0] == c then Some(0)
    else match IndexOf(s[1..], c)
      case None => None
      case Some(i) => Some(i + 1)
  }

  /**
   * `s.split(c)` with a one-character separator, as both Python's `str.split(" ")` and
   * JavaScript's `String.prototype.split(",")` behave: every occurrence splits, empty pieces
   * are kept, and the empty string gives one empty piece.
   */
  function Split(s: string, c: char): (parts: seq<string>)
    ensures |parts| >= 1
    decreases |s|
  {
    match IndexOf(s, c)
    case None => [s]
    case Some(i) => [s[..i]] + Split(s[i + 1..], c)
  }

  /** `sep.join(parts)`. */
  function Join(parts: seq<string>, sep: string): string
  {
    if |parts| == 0 then ""
    else if |parts| == 1 then parts[0]
    else parts[0] + sep + Join(parts[1..], sep)
  }

  /** No piece of a split contains the separator. */
  lemma {:induction false} SplitPiecesAvoidSeparator(s: string, c: char)
    ensures forall p, k :: p in Split(s, c) && 0 <= k < |p| ==> p[k] != c
    decreases |s|
  {
    match IndexOf(s, c)
    case None =>
    case Some(i) =>
      SplitPiecesAvoidSeparator(s[i + 1..], c);
  }

  /** Splitting and re-joining with the same separator gives back the string. */
  lemma {:induction false} JoinSplit(s: string, c: char)
    ensures Join(Split(s, c), [c]) == s
    decreases |s|
  {
    match IndexOf(s, c)
    case None =>
    case Some(i) =>
      var rest := Split(s[i + 1..], c);
      JoinSplit(s[i + 1..], c);
      assert Split(s, c) == [s[..i]] + rest;
      assert s == s[..i] + [c] + s[i + 1..];
  }

  /** When `s` starts with `prefix + [c]` and `prefix` has no `c`, the first piece is `prefix`. */
  lemma SplitAfterPrefix(s: string, prefix: string, c: char)
    requires StartsWith(s, prefix + [c])
    requires forall k :: 0 <= k < |prefix| ==> prefix[k] != c
    ensures |Split(s, c)| >= 2
    ensures Split(s, c)[0] == prefix
    ensures Split(s, c)[1] == Split(s[|prefix| + 1..], c)[0]
  {
    assert s[|prefix|] == c;
    var i := IndexOf(s, c);
    assert i == Some(|prefix|);
  }

  function DigitChar(d: nat): (c: char)
    requires d < 10
    ensures IsDigit(c)
  {
    (48 + d) as char
  }

  function DigitValue(c: char): (d: nat)
    requires IsDigit(c)
    ensures d < 10
    ensures DigitChar(d) == c
  {
    c as int - 48
  }

  /** `str(n)` for a natural number. */
  function NatToString(n: nat): (s: string)
    ensures |s| >= 1
    ensures forall k :: 0 <= k < |s| ==> IsDigit(s[k])
  {
    if n < 10 then [DigitChar(n)] else NatToString(n / 10) + [DigitChar(n % 10)]
  }

  /** `str(i)` for any integer, with a leading minus sign for negatives. */
  function IntToString(i: int): (s: string)
    ensures |s| >= 1
    ensures i >= 0 <==> IsDigit(s[0])
  {
    if i < 0 then "-" + NatToString(-i) else NatToString(i)
  }

  /** The value of a string of decimal digits, most significant first. */
  function DigitsValue(s: string): nat
    requires forall k :: 0 <= k < |s| ==> IsDigit(s[k])
  {
    if |s| == 0 then 0 else DigitsValue(s[..|s| - 1]) * 10 + DigitValue(s[|s| - 1])
  }

  /** Reads a non-empty run of decimal digits; anything else is not an id. */
  function ParseNat(s: string): (r: Option<nat>)
    ensures r.Some? <==> |s| >= 1 && forall k :: 0 <= k < |s| ==> IsDigit(s[k])
  {
    if |s| >= 1 && forall k :: 0 <= k < |s| ==> IsDigit(s[k]) then Some(DigitsValue(s)) else None
  }

  /** Printing then parsing a natural number gives it back. */
  lemma {:induction false} ParseNatToString(n: nat)
    ensures ParseNat(NatToString(n)) == Some(n)
  {
    DigitsOfNatToString(n);
  }

  lemma {:induction false} DigitsOfNatToString(n: nat)
    ensures DigitsValue(NatToString(n)) == n
  {
    var s := NatToString(n);
    if n < 10 {
      assert s[..0] == "";
    } else {
      var front := NatToString(n / 10);
      assert s[..|s| - 1] == front;
      DigitsOfNatToString(n / 10);
    }
  }

  /** Decimal printing is injective, so distinct ids never share a token subject. */
  lemma NatToStringInjective(a: nat, b: nat)
    requires NatToString(a) == NatToString(b)
    ensures a == b
  {
    ParseNatToString(a);
    ParseNatToString(b);
  }
}

=== FILE: webcam_capture.dfy ===
/**
 * The webcam capture component's logic: turning the screenshot's data URL into the bytes
 * of an upload file, and the guard that decides whether a capture is reported at all.
 *
 * `atob` (forgiving base64 decoding, which throws on malformed input) is a parameter:
 * `None` stands for the throw.
 */
module WebcamCapture {
  import opened Wrappers
  import opened Text

  type Decoder = string -> Option<string>

  datatype FileBlob = FileBlob(bytes: seq<bv8>, name: string, mimeType: string)

  const FileName := "image.webp"
  const FileType := "image/webp"

  /** Storing a UTF-16 code unit into a `Uint8Array` keeps it modulo 256. */
  function ByteOf(c: char): bv8
  {
    ((c as int) % 256) as bv8
  }

  /**
   * `dataURL.split(',')[1]`: the text after the first comma up to the next one; with no
   * comma the element is `undefined`, which `atob` receives as the string "undefined".
   */
  function Payload(dataUrl: string): (p: string)
    ensures IndexOf(dataUrl, ',').None? ==> p == "undefined"
    ensures IndexOf(dataUrl, ',').Some? ==>
      var rest := dataUrl[IndexOf(dataUrl, ',').value + 1..];
      StartsWith(rest, p) && (|p| == |rest| || rest[|p|] == ',')
  {
    var parts := Split(dataUrl, ',');
    if |parts| < 2 then "undefined"
    else
      FirstPieceAfter(dataUrl, ',');
      parts[1]
  }

  lemma FirstPieceAfter(s: string, c: char)
    requires IndexOf(s, c).Some?
    ensures |Split(s, c)| >= 2
    ensures var rest := s[IndexOf(s, c).value + 1..];
      && Split(s, c)[1] == Split(rest, c)[0]
      && StartsWith(rest, Split(rest, c)[0])
      && (|Split(rest, c)[0]| == |rest| || rest[|Split(rest, c)[0]|] == c)
  {
  }

  /**
   * `dataUrlToFile`: the decoded payload's characters, each reduced to a byte, in order,
   * in a file always named "image.webp" of type "image/webp". A payload `atob` rejects
   * makes the call throw.
   */
  method DataUrlToFile(dataUrl: string, atob: Decoder) returns (r: Result<FileBlob, string>)
    ensures atob(Payload(dataUrl)).None? <==> r.Failure?
    ensures r.Success? ==>
      var bstr := atob(Payload(dataUrl)).value;
      && |r.value.bytes| == |bstr|
      && (forall i :: 0 <= i < |bstr| ==> r.value.bytes[i] == ByteOf(bstr[i]))
      && r.value.name == FileName && r.value.mimeType == FileType
  {
    var decoded := atob(Payload(dataUrl));
    if decoded.None? {
      return Failure("InvalidCharacterError");
    }
    var bstr := decoded.value;
    var n := |bstr|;
    var u8arr := new bv8[n](_ => 0);
    while n != 0
      invariant 0 <= n <= |bstr| == u8arr.Length
      invariant forall i :: n <= i < |bstr| ==> u8arr[i] == ByteOf(bstr[i])
      decreases n
    {
      n := n - 1;
      u8arr[n] := ByteOf(bstr[n]);
    }
    return Success(FileBlob(u8arr[..], FileName, FileType));
  }

  /** What `capture` hands to `onCapture`. */
  datatype ScreenshotData = ScreenshotData(imageSrc: string, file: FileBlob)

  datatype CaptureOutcome = NotReported | Reported(data: ScreenshotData) | Threw(error: string)

  /**
   * `capture`: `onCapture` is called only when the webcam is mounted and its screenshot is
   * a non-empty string, and it receives that very screenshot with the file made from it.
   */
  method Capture(mounted: bool, screenshot: Option<string>, atob: Decoder) returns (o: CaptureOutcome)
    ensures o.Reported? ==> mounted && screenshot.Some? && o.data.imageSrc == screenshot.value
    ensures o.Reported? || o.Threw? <==> mounted && screenshot.Some? && screenshot.value != ""
    ensures o.Reported? ==> o.data.file.name == FileName && o.data.file.mimeType == FileType
    ensures o.Threw? ==> atob(Payload(screenshot.value)).None?
    ensures o.Reported? ==>
      var decoded := atob(Payload(screenshot.value));
      && decoded.Some? && |o.data.file.bytes| == |decoded.value|
      && (forall i :: 0 <= i < |decoded.value| ==> o.data.file.bytes[i] == ByteOf(decoded.value[i]))
  {
    if !mounted || screenshot.None? || screenshot.value == "" {
      return NotReported;
    }
    var file := DataUrlToFile(screenshot.value, atob);
    if file.Failure? {
      return Threw(file.error);
    }
    return Reported(ScreenshotData(screenshot.value, file.value));
  }
}

=== FILE: wrappers.dfy ===
/** Option and Result, the two failure-carrying datatypes the rest of the model uses. */
module Wrappers {

  datatype Option<+T> = None | Some(value: T)

  /** `Failure` carries the exception (or error list) a Python or TypeScript call would raise. */
  datatype Result<+T, +E> = Success(value: T) | Failure(error: E) {

    predicate IsFailure() {
      Failure?
    }

    function PropagateFailure<U>(): Result<U, E>
      requires Failure?
    {
      Failure(error)
    }

    function Extract(): T
      requires Success?
    {
      value
    }
  }
}
